=== FILE: README.md ===
# Semaphore tagging adapter: a Dafny model

This project models the core of the adapter that connects the newsroom
system to the Semaphore classification service (`server/cp/ai/semaphore.py`).
The adapter does four things, and each has its own module.

- **Classify requests (`RequestBuilder`).** `html_to_xml` fills the article's
  headline, abstract, body and slugline into a fixed XML template. It then
  strips six literal markup strings from the result.
- **Classify answers (`AnalyzeNormalizer`).** The nested
  `transform_xml_response` of `analyze` turns the `META` rows of the XML answer
  into five buckets of tags: subject, organisation, person, event and place.
  Category rows are routed by a substring of their name. Media Topic label and
  guid paths are zipped into parent-linked subject chains. Every insertion goes
  through `add_to_dict`, which drops empty qcodes and duplicates.
- **Search answers (`SearchNormalizer`, `OutputShaper`).** The nested
  `transform_xml_response` of `analyze_2` sorts the `termHints` of the JSON
  answer into the same five buckets, with no de-duplication. For each subject
  it looks up the broader-term path, sets the subject's parent and appends one
  `broader` entry per term of the path. `convert_to_desired_format` then wraps
  the six lists in the `result` envelope.
- **Dispatch (`SemaphoreService`).** `analyze` answers `{}` when the base URL or
  the API key is missing. It sends an article that carries a `searchString` to
  the search endpoint when the search URL is set, and every other article to
  the classify endpoint.

`TagModel` holds the shared tag, category and bucket types and the
`add_to_dict` rule. `PyText` states the Python string built-ins the code relies
on, over `seq<char>`: substring `in`, `split`, `join`, `replace` and `[::-1]`.
`Wrappers` holds `Option` and `Result`.

The two normalisers change state step by step in the source, so they are
imperative here.

- `AnalyzeNormalizer.Normalizer` is a class. It holds `response_dict`,
  `path_labels` (with its insertion order) and `path_guids`. Its methods mirror
  `add_to_dict`, the body of the META loop, the `zip` loop with its
  `parent_qcode`, and the loop over `path_labels.items()`.
- `SearchNormalizer.TransformSearchResponse` fills local lists in a loop. The
  index loop that builds `broader` for a subject is its own method,
  `AppendBroader`.

Each method is proved equal to a specification function (`AnalyzeSpec`,
`SearchSpec`). The properties are proved as lemmas about those functions.
Request building, the envelope and the dispatch are pure functions.

The network calls are parameters:

- the classify POST (`Classifier`);
- the search GET (`Searcher`);
- `fetch_parent_info` (`ParentLookup`).

Each takes what the source sends and returns the decoded answer, or `None` when
the request raises or its answer cannot be parsed.

## Two consequences of the code as written

- **The first path segment is kept.** `split("/")[1:]` drops only the empty
  piece before the leading `/`, so `/A/B/C` keeps `A`. With guids `/g0/g1/g2`,
  subject gets `A`/`g0` with no parent, then `B`/`g1` with parent `g0`, then
  `C`/`g2` with parent `g1`. `AnalyzeNormalizer.SinglePathChain` proves this
  for every such pair of paths.
- **Cleaning is a single pass.** Each of the six strings is removed in one
  `str.replace` pass, so the output can still contain one of them: `<<p>p>`
  becomes `<p>`. `RequestBuilder.CleanIsSinglePass` shows this.

## Model

| member | source | states |
|---|---|---|
| TagModel.AddTag | server/cp/ai/semaphore.py:301-303 | `add_to_dict` on one bucket only appends. The result holds exactly the old entries plus the tag when its qcode is non-empty. A bucket with non-empty qcodes and no duplicates stays so. |
| TagModel.Insert | server/cp/ai/semaphore.py:301-303 | `add_to_dict(group, tag)` changes only the bucket of `group`, as `AddTag` does. |
| TagModel.AddAllFacts | server/cp/ai/semaphore.py:301-303 | Repeated `add_to_dict` keeps the old bucket as a prefix, and a bucket with non-empty qcodes and no duplicates stays so. |
| TagModel.AddAllMembership | server/cp/ai/semaphore.py:301-303 | After repeated `add_to_dict`, an entry is in the bucket iff it was there or is one of the added tags with a non-empty qcode. |
| TagModel.AddTagIdempotent | server/cp/ai/semaphore.py:302 | Adding the same tag twice is the same as adding it once. |
| TagModel.AddAll | server/cp/ai/semaphore.py:301-303 | Calls `add_to_dict` once for each tag in the run, in order, on one bucket (the body; no ensures). Its properties are stated by `AddAllFacts`, `AddAllMembership` and `AddAllNoDrop`. |
| TagModel.AddAllNoDrop | server/cp/ai/semaphore.py:302-303 | If the appended tags keep the bucket free of empty qcodes and duplicates, `add_to_dict` keeps every one of them, in order. |
| TagModel.Buckets.Put | server/cp/ai/semaphore.py:288-294 | Replacing one of the five buckets leaves the other four as they were. |
| TagModel.CategoryScheme | server/cp/ai/semaphore.py:137-154 | The scheme URI of each category (the body; no ensures): Organizations, People, Events and Places under `http://cv.cp.org/`, and the IPTC media topic scheme for subject. The same URIs appear at lines 324-333 and 361. |
| TagModel.NewTag | server/cp/ai/semaphore.py:156-164 | A tag with the given name, qcode, scheme and parent, and the fixed `source` `"Semaphore"`, `altids` `{"source_name": "source_id"}` and `original_source` `"original_source_value"` (the body; no ensures). The same fixed entries appear at lines 198-200, 339-341 and 358-360. |
| AnalyzeNormalizer.PathSegments | server/cp/ai/semaphore.py:315-317 | `value.split("/")[1:]`: no stored segment contains `/`. |
| AnalyzeNormalizer.PathSegmentsRoundTrip | server/cp/ai/semaphore.py:315-317 | For a path that starts with `/`, joining the stored segments with `/` after a leading `/` gives the path back. |
| AnalyzeNormalizer.PathSegmentsOfPath | server/cp/ai/semaphore.py:315-317 | Writing `/`-free segments out as a rooted path and splitting it gives every segment back, the first one included. |
| AnalyzeNormalizer.MetaGroup | server/cp/ai/semaphore.py:321-333 | A category META never goes to subject. It is dropped iff its name contains none of Organization, Person, Event and Place. |
| AnalyzeNormalizer.MetaGroupPriority | server/cp/ai/semaphore.py:321-333 | A name containing Organization goes to organisation; otherwise Person goes to person, then Event to event, then Place to place. |
| AnalyzeNormalizer.MetaRoute | server/cp/ai/semaphore.py:314-320 | The bucket of a META row (the body; no ensures): none for the two path names, which are stored instead, and otherwise `MetaGroup` of the name. |
| AnalyzeNormalizer.QcodeOf | server/cp/ai/semaphore.py:338 | The `qcode` of a category tag: the row's `id` when present, otherwise `""` (the body; no ensures). |
| AnalyzeNormalizer.MetaTag | server/cp/ai/semaphore.py:336-343 | The tag a category row adds: `name` from `value`, `qcode` from `QcodeOf(id)`, the category's scheme, the fixed `source`, `altids` and `original_source`, and no `parent` key (the body; no ensures). |
| AnalyzeNormalizer.ScanStep | server/cp/ai/semaphore.py:306-344 | One META row (the body; no ensures). A label row overwrites `path_labels[score]` with the split path and appends `score` to the key order only when it is new. A guid row overwrites `path_guids[score]`. Any other row is added with `add_to_dict` to the bucket `MetaGroup` gives, or ignored when that is `None`. |
| AnalyzeNormalizer.Scan | server/cp/ai/semaphore.py:306-344 | The loop over the META rows: `ScanStep` applied to each row in document order, starting from five empty buckets and empty path maps (the body; no ensures). `ScanInvariant`, `ScanBucket`, `ScanPaths`, `ScanHasPath` and `ScanKeepsLastPath` state what it computes. |
| AnalyzeNormalizer.ChainTags | server/cp/ai/semaphore.py:352-366 | The `zip` of equally long label and guid paths yields one subject candidate per pair. |
| AnalyzeNormalizer.ChainFrom | server/cp/ai/semaphore.py:352-366 | The `zip` loop started from a given `parent_qcode` yields one tag per label/guid pair. `ChainFromLink` gives each tag's name, qcode and parent. |
| AnalyzeNormalizer.ChainTagsLink | server/cp/ai/semaphore.py:352-366 | Candidate `i` carries label `i` and guid `i`. The first has parent `None` and each later one has the previous guid as parent. |
| AnalyzeNormalizer.ChainFromLink | server/cp/ai/semaphore.py:352-366 | The same zip, starting from a given `parent_qcode`: link `i` points to that parent when `i` is 0 and to guid `i-1` otherwise. |
| AnalyzeNormalizer.GuidsFor | server/cp/ai/semaphore.py:348 | `path_guids.get(score, [])`: the stored guid path of the score, or the empty list when the score has none (the body; no ensures). |
| AnalyzeNormalizer.MatchChain | server/cp/ai/semaphore.py:348-366 | One score of the matching loop (the body; no ensures). When the label and guid lists differ in length the bucket is unchanged. Otherwise each link of `ChainTags` is added with `add_to_dict`. `MatchChainMembership` states the result. |
| AnalyzeNormalizer.MatchAll | server/cp/ai/semaphore.py:347-366 | The loop over `path_labels.items()`: `MatchChain` for each score in key insertion order, with `path_guids.get(score, [])` (the body; no ensures). `MatchAllFacts`, `MatchAllMembership` and `MatchAllSkipsMismatched` state the result. |
| AnalyzeNormalizer.MatchAllFacts | server/cp/ai/semaphore.py:347-366 | Matching the chains keeps the subject bucket as a prefix and keeps it well formed. |
| AnalyzeNormalizer.Normalizer.constructor | server/cp/ai/semaphore.py:288-298 | Starts with five empty buckets and no paths. |
| AnalyzeNormalizer.Normalizer.AddToDict | server/cp/ai/semaphore.py:301-303 | Updates the one bucket as `Insert` says and keeps every bucket well formed. |
| AnalyzeNormalizer.Normalizer.ProcessMeta | server/cp/ai/semaphore.py:307-344 | One META row: a label or guid path is stored under its score, overwriting an earlier one. A category row goes through `add_to_dict`. The new state is `ScanStep` of the old. |
| AnalyzeNormalizer.Normalizer.AddChain | server/cp/ai/semaphore.py:352-366 | The `zip` loop with `parent_qcode` adds `ChainTags(labels, guids)` to subject through `add_to_dict`. Nothing else changes. |
| AnalyzeNormalizer.Normalizer.MatchPaths | server/cp/ai/semaphore.py:347-366 | The loop over `path_labels.items()`, in insertion order, with `path_guids.get(score, [])`. Scores whose paths differ in length are skipped. |
| AnalyzeNormalizer.TransformXmlResponse | server/cp/ai/semaphore.py:283-368 | The result equals `AnalyzeSpec(metas)`. Every bucket holds only non-empty qcodes and no two equal entries. |
| AnalyzeNormalizer.AnalyzeSpec | server/cp/ai/semaphore.py:283-368 | The classify `transform_xml_response`: `Scan` over the META rows, then the subject bucket replaced by `MatchAll` over the stored paths (the body; no ensures). `TransformXmlResponse` is proved equal to it, and `AnalyzeOutputOk`, `AnalyzeCategoryBucket` and `AnalyzeSubjectMembership` state its properties. |
| AnalyzeNormalizer.RoutedTagsMembership | server/cp/ai/semaphore.py:319-344 | A tag is among those routed to a category iff some non-path row whose name routes to that category yields it. |
| AnalyzeNormalizer.RoutedTagsSource | server/cp/ai/semaphore.py:319-344 | Every tag routed to a category comes from a row routed to it. |
| AnalyzeNormalizer.RoutedTagsKeep | server/cp/ai/semaphore.py:319-344 | Every row routed to a category contributes its tag. |
| AnalyzeNormalizer.ScanInvariant | server/cp/ai/semaphore.py:301-344 | After the META loop the buckets are well formed, every stored label score is listed once in insertion order, and subject is still empty. |
| AnalyzeNormalizer.AnalyzeOutputOk | server/cp/ai/semaphore.py:283-368 | Every bucket of the result has non-empty qcodes and no duplicates. |
| AnalyzeNormalizer.ScanBucket | server/cp/ai/semaphore.py:320-344 | After the META loop, a category bucket is the de-duplicated list of the rows routed to it. |
| AnalyzeNormalizer.AnalyzeCategoryBucket | server/cp/ai/semaphore.py:320-344 | In the result, a category bucket holds exactly the tags, with non-empty qcode, of the rows routed to it. Path rows and unmatched names never reach it. |
| AnalyzeNormalizer.ScanPaths | server/cp/ai/semaphore.py:314-317 | The loop's label (guid) map is built by the label (guid) rows alone; category rows never touch it. |
| AnalyzeNormalizer.ScanHasPath | server/cp/ai/semaphore.py:314-317 | A score has a stored label (guid) path iff some row is a label (guid) path with that score. |
| AnalyzeNormalizer.ScanKeepsLastPath | server/cp/ai/semaphore.py:314-317 | The stored path of a score is the split of the last such row. A later row overwrites an earlier one. |
| AnalyzeNormalizer.StepPathMap | server/cp/ai/semaphore.py:314-317 | One row changes a path map only at its own score, and only when it is a row of that map. |
| AnalyzeNormalizer.MatchChainMembership | server/cp/ai/semaphore.py:347-366 | A tag is in the subject bucket after one score iff it was there, or it is a link of that score's matched chain with a non-empty qcode. |
| AnalyzeNormalizer.MatchAllMembership | server/cp/ai/semaphore.py:347-366 | A tag is in the matched subject bucket iff it was there, or it is a link, with a non-empty qcode, of the matched chain of some listed score. |
| AnalyzeNormalizer.MatchAllSource | server/cp/ai/semaphore.py:347-366 | A tag the matching adds comes from the matched chain of some listed score. |
| AnalyzeNormalizer.MatchAllKeep | server/cp/ai/semaphore.py:347-366 | Every non-empty-qcode link of the matched chain of a listed score is added. |
| AnalyzeNormalizer.AnalyzeSubjectMembership | server/cp/ai/semaphore.py:347-366 | A tag is in the result's subject bucket iff its qcode is non-empty and it is a link of the matched chain of some stored score. |
| AnalyzeNormalizer.MatchAllSkipsMismatched | server/cp/ai/semaphore.py:347-350 | A score whose label and guid paths differ in length, including a missing guid path with non-empty labels, adds nothing to subject. |
| AnalyzeNormalizer.ChainTagsOk | server/cp/ai/semaphore.py:352-366 | A chain with non-empty, distinct guids has non-empty qcodes and no duplicates. |
| AnalyzeNormalizer.ScanOfPathPair | server/cp/ai/semaphore.py:314-317 | A label row and a guid row of one score store one path each, keep that score as the only label key, and add no tag. |
| AnalyzeNormalizer.SinglePathChain | server/cp/ai/semaphore.py:314-366 | For one label path and one guid path with the same score, subject is the zipped chain of all segments (the first included) when the lengths agree, and empty otherwise. With distinct non-empty guids, nothing is dropped. |
| SearchNormalizer.HintCategory | server/cp/ai/semaphore.py:139-154 | A hint whose classes contain Organization goes to organisation; otherwise People goes to person, then Event to event, then Place to place. It goes to subject iff its classes contain none of the four. |
| SearchNormalizer.SubjectEntry | server/cp/ai/semaphore.py:156-185 | A subject's entry keeps its name and id and uses the media topic scheme. Its parent is the first term of the reversed path, or `None` for an empty path. |
| SearchNormalizer.HintEntry | server/cp/ai/semaphore.py:156-164 | The initial entry of a hint: `name`, `qcode` from `id`, the fixed `source`, `altids` and `original_source`, the scheme of its category and `parent` `None` (the body; no ensures). |
| SearchNormalizer.BroaderChain | server/cp/ai/semaphore.py:188-203 | One `broader` entry per term of the reversed path. |
| SearchNormalizer.BroaderChainLink | server/cp/ai/semaphore.py:188-203 | Entry `i` is term `i` of the reversed path, with the media topic scheme. It points to term `i+1`, and the last entry has parent `None`. |
| SearchNormalizer.AppendBroader | server/cp/ai/semaphore.py:188-203 | The index loop over the reversed path appends exactly the broader chain to `broader`. |
| SearchNormalizer.NextLink | server/cp/ai/semaphore.py:195-197 | The `parent` of the `i`-th broader entry (the body; no ensures): the qcode of term `i + 1` of the reversed path when there is one, otherwise `None`. |
| SearchNormalizer.SearchStep | server/cp/ai/semaphore.py:136-203 | One iteration over `termHints` (the body; no ensures). A non-subject hint appends its entry to its bucket. A subject hint looks up its parent path: failure (the unpack `ValueError` at line 177) gives `None`; otherwise the subject entry is appended and `broader` grows by the chain of the reversed path. |
| SearchNormalizer.SearchSpec | server/cp/ai/semaphore.py:125-205 | The search `transform_xml_response`: `SearchStep` over the hints in order from six empty lists, and `None` as soon as one step fails (the body; no ensures). `TransformSearchResponse` is proved equal to it, and `SearchFailsIff`, `SearchBucketIsFilter` and `SearchBroaderIsConcat` state its properties. |
| SearchNormalizer.BroaderChainOfPath | server/cp/ai/semaphore.py:93 | On the path as the endpoint lists it: entry `i` is the `i`-th term from the end. Each entry points to the next entry, and the last entry has no parent. |
| SearchNormalizer.TransformSearchResponse | server/cp/ai/semaphore.py:125-205 | The result equals `SearchSpec(hints, lookup)`. It is `None` once a parent lookup fails. |
| SearchNormalizer.SearchFailureSticks | server/cp/ai/semaphore.py:177-179 | Once the hints up to some point have failed, the whole search fails. |
| SearchNormalizer.StepFails | server/cp/ai/semaphore.py:177-179 | A subject hint whose lookup fails fails its step. |
| SearchNormalizer.FailingHintFails | server/cp/ai/semaphore.py:177-179 | A subject hint whose parent lookup fails makes the whole search fail. |
| SearchNormalizer.FailureCause | server/cp/ai/semaphore.py:177-179 | A failed search has a subject hint whose parent lookup failed. |
| SearchNormalizer.SearchFailsIff | server/cp/ai/semaphore.py:93-97 | The search fails iff the parent lookup of some subject hint fails. Lines 93-97 return `[]` on error, and line 177 cannot unpack it. |
| SearchNormalizer.RoutedMembership | server/cp/ai/semaphore.py:166-175 | A hint is routed to a category iff it is one of the hints and its classes select that category. |
| SearchNormalizer.Entries | server/cp/ai/semaphore.py:156-185 | One final entry per hint. |
| SearchNormalizer.EntriesLink | server/cp/ai/semaphore.py:156-185 | Entry `i` is the final entry of hint `i`: its subject entry with the parent set, or its category entry. |
| SearchNormalizer.SearchBucketIsFilter | server/cp/ai/semaphore.py:136-185 | In a successful search, each bucket is exactly the final entries of the hints routed to it, in input order and with no de-duplication. |
| SearchNormalizer.StepBucket | server/cp/ai/semaphore.py:166-185 | One hint appends its final entry to its own bucket and leaves the other four alone. |
| SearchNormalizer.SearchBroaderIsConcat | server/cp/ai/semaphore.py:186-203 | `broader` is the broader chains of the subject hints, concatenated in input order. |
| SearchNormalizer.RoutedPartition | server/cp/ai/semaphore.py:166-175 | Every hint is routed to exactly one of the five categories. |
| SearchNormalizer.SearchBucketSizes | server/cp/ai/semaphore.py:136-188 | The five bucket lengths of a successful search sum to the number of hints. |
| OutputShaper.ConvertToDesiredFormat | server/cp/ai/semaphore.py:207-222 | The envelope carries the five buckets and `broader` unchanged, and an empty `object` bucket. |
| OutputShaper.ConvertRoundTrip | server/cp/ai/semaphore.py:207-222 | Every envelope with an empty `object` is the conversion of the document read back out of it. |
| OutputShaper.ConvertInjective | server/cp/ai/semaphore.py:207-222 | Different documents give different envelopes. |
| RequestBuilder.FillTemplateSlots | server/cp/ai/semaphore.py:396-419 | Headline, abstract (as `headline_extended`), body_html and slugline each fill their own slot of the template, in that order. |
| RequestBuilder.FillTemplate | server/cp/ai/semaphore.py:396-419 | `xml_template.format(headline, headline_extended, body_html, slugline)`: the five fixed segments of the template with the four fields between them (the body; no ensures). `FillTemplateSlots` states where each field lands. |
| RequestBuilder.CleanHtmlContent | server/cp/ai/semaphore.py:385-394 | Removing the six literals in order never lengthens the text. |
| PyText.ContainsIff | server/cp/ai/semaphore.py:321-333 | Python's substring `in` holds iff the text occurs at some position. |
| PyText.Contains | server/cp/ai/semaphore.py:322-331 | Python's substring test `t in s`, by recursion on `s` (the body; no ensures). `ContainsIff` ties it to an occurrence at some index. |
| PyText.Split | server/cp/ai/semaphore.py:315-317 | `s.split(sep)` for a non-empty separator: the pieces between non-overlapping occurrences, scanned left to right. It always returns at least one piece. |
| PyText.Join | server/cp/ai/semaphore.py:387-392 | `sep.join(pieces)` for at least one piece (the body; no ensures). It is the reference form of `replace` (`ReplaceIsJoinOfSplit`). `SplitJoinRoundTrip` and `SplitOfJoin` relate it to `Split`. |
| PyText.ReplaceAll | server/cp/ai/semaphore.py:387-392 | `s.replace(target, replacement)` for a non-empty target, scanning left to right (the body; no ensures). `ReplaceIsJoinOfSplit`, `ReplaceShrinks` and `ReplaceAbsent` state its properties. |
| PyText.SplitJoinRoundTrip | server/cp/ai/semaphore.py:315-317 | `sep.join(s.split(sep))` gives `s` back. |
| PyText.SplitOfJoin | server/cp/ai/semaphore.py:315-317 | Splitting a join of pieces free of a one-character separator gives the pieces back. |
| PyText.SplitPiecesAvoidSep | server/cp/ai/semaphore.py:315-317 | No piece of `s.split(sep)` contains `sep`. |
| PyText.ReplaceIsJoinOfSplit | server/cp/ai/semaphore.py:387-392 | `s.replace(old, new)` is `new.join(s.split(old))`: one left-to-right pass over non-overlapping occurrences. |
| PyText.ReplaceShrinks | server/cp/ai/semaphore.py:387-392 | Replacing with a string no longer than the target never lengthens the text. |
| PyText.ReplaceAbsent | server/cp/ai/semaphore.py:387-392 | Text that does not contain the target is left unchanged. |
| PyText.Reverse | server/cp/ai/semaphore.py:93 | `[::-1]` keeps the length and puts element `i` at position `n-1-i`. |
| RequestBuilder.CleanLeavesPlainText | server/cp/ai/semaphore.py:385-394 | Text with no `<` and no `&` is left unchanged. |
| RequestBuilder.CleanIsSinglePass | server/cp/ai/semaphore.py:385-394 | Cleaning is not idempotent: `<<p>p>` cleans to `<p>`, which cleans to the empty text. |
| RequestBuilder.HtmlToXml | server/cp/ai/semaphore.py:384-422 | Fails iff one of body_html, headline, abstract and slugline is missing, and names the first missing one in that lookup order. Otherwise returns the cleaned, filled template. |
| SemaphoreService.SearchUrl | server/cp/ai/semaphore.py:107-109 | The search URL is the configured base, then the query, then `.json`. It is absent when the search URL is unset. |
| SemaphoreService.Configured | server/cp/ai/semaphore.py:239 | The guard `not self.base_url or not self.api_key` (also at line 101) is false: both are set and non-empty (the body; no ensures). |
| SemaphoreService.SearchOutcome | server/cp/ai/semaphore.py:99-235 | `analyze_2` once the URL is built (the body; no ensures). `{}` when unconfigured (line 101). `Failed` when the GET raises or its body does not parse: `response` is unbound at line 122, or `json.loads` raises at 224, and the exception reaches the handler at 380-382. `Failed` too when the search normalisation fails (the unpack `ValueError` at 177). Otherwise the converted envelope. |
| SemaphoreService.ClassifyOutcome | server/cp/ai/semaphore.py:259-372 | The classify path of `analyze` (the body; no ensures). `Failed` when `html_to_xml` raises `KeyError` (lines 411-414), when the POST raises so that `response` is unbound at line 281, or when the answer does not parse. Each of these reaches the handler at 380-382. Otherwise the five buckets of `AnalyzeSpec`. |
| SemaphoreService.Analyze | server/cp/ai/semaphore.py:237-380 | Answers `{}` iff unconfigured. When configured, an article with a `searchString` and a set search URL gets the search outcome, and every other article gets the classify outcome. A search result has an empty `object` bucket and equals the normalised hints. A classify result needs the article fields and equals the normalised META rows, with well-formed buckets. |
| SemaphoreService.ConfiguredAnswers | server/cp/ai/semaphore.py:239-243 | A configured adapter searches, classifies or fails; it never answers `{}`. |
| SemaphoreService.SearchTakesPrecedence | server/cp/ai/semaphore.py:246-254 | With a search URL set, an article with a `searchString` is never classified. |
| SemaphoreService.SearchFallsBackToClassify | server/cp/ai/semaphore.py:107-109 | Without a search URL, the `TypeError` is swallowed and the article goes down the classify path. |

## Left out

- HTTP and tokens (`get_access_token`, `session.post`/`session.get`, timeouts, `raise_for_status`) are left out. Each endpoint is a function parameter that returns the decoded answer, or `None` when the request itself raises (leaving `response` unbound) or the body cannot be parsed.
- An error status is not modelled as its own case. At server/cp/ai/semaphore.py:116-122 and 275-281 the exception from `raise_for_status` is logged and swallowed, and the error body is still parsed and normalised. The model takes whatever rows or hints that body decodes to as the answer.
- XML and JSON parsing (`ET.fromstring`, `json.loads`) is left out. The answers are taken as already-decoded META rows and `termHints`, and parsing failures are the `None` of those parameters.
- `fetch_parent_info` is not modelled as code. Its answer is the `ParentLookup` parameter: the `Topic` fields of the narrower-term path, or `None` for the `[]` it returns on error.
- Logging, `traceback.print_exc` and `print` have no effect on the result and are left out.
- The catch-all handlers are one outcome, `Failed`. The model does not say which exceptions reach which handler.
- `self.output` is written by the search branch of `analyze` and returned at once, but not read elsewhere. It is not modelled as a field.
- META rows without a `name` or `value` are not modelled: `Meta.name` and `Meta.value` are strings. In the source, a row with no name raises at the substring test, and a path row with no value raises at `split`. A category row with no value does not raise: it yields a tag whose name is `None` (kept when it has an id).
- Null search fields are not modelled: `TermHint.name`, `TermHint.id`, `ParentTerm.name` and `ParentTerm.qcode` are strings. None of these cases raises in the source. A JSON `null` in a hint's `name` or `id` passes through lines 157-158 into the entry unchanged. A `Topic` field without a `NAME` or `ID` attribute gives `None` at lines 88-89. When the last-listed term has no `ID`, the subject's `parent` is `None` (line 183), and the broader entries carry that `None` as a qcode and as the parent of the entry before it (lines 194-197).
- Other non-META elements of the XML answer are not modelled; the source skips them.
- The `for key, value in html_content.items()` loop is modelled as a key-membership test. Non-dict `html_content` is not modelled.
- A `TypeError` in the search branch is modelled only when the search URL is unset. Other `TypeError`s (non-string fields, `classes` that are not lists) are not modelled.
- The copy of `convert_to_desired_format` at server/cp/ai/semaphore.py:43-58 is identical to the nested one at 207-222 and is never called. The model has one definition.
- Strings are sequences of characters. No encoding or Unicode normalisation is modelled.
- `server/app.py`, `client/index.js`, the React search panel and `server/cp/output/formatter/semaphore.py` are not part of this model. They are framework glue and UI, not adapter logic.

=== FILE: analyze.dfy ===
/**
 * The normaliser of the classify ("analyze") endpoint's XML response: the
 * nested `transform_xml_response` of `Semaphore.analyze`. The XML is taken
 * as already parsed into its `META` rows, in document order.
 */
module AnalyzeNormalizer {
  import opened Wrappers
  import opened PyText
  import opened TagModel

  /** A `META` element: its `name`, `value`, `score` and `id` attributes (`score` and `id` may be absent). */
  datatype Meta = Meta(name: string, value: string, score: Option<string>, id: Option<string>)

  /** The key of `path_labels` and `path_guids`: a META row's `score`, or `None` when it has none. */
  type Score = Option<string>

  const PathLabelName: string := "Media Topic_PATH_LABEL"
  const PathGuidName: string := "Media Topic_PATH_GUID"

  /** `value.split("/")[1:]`: the path with its root segment dropped. */
  function PathSegments(value: string): (segments: seq<string>)
    ensures forall k :: 0 <= k < |segments| ==> !Contains(segments[k], "/")
  {
    SplitPiecesAvoidSep(value, "/");
    Split(value, "/")[1..]
  }

  /** The bucket a category META row goes to, by substring of its name, in the order Organization, Person, Event, Place. */
  function MetaGroup(name: string): (g: Option<Category>)
    ensures g != Some(Subject)
    ensures g == None <==>
      !Contains(name, "Organization") && !Contains(name, "Person") && !Contains(name, "Event") && !Contains(name, "Place")
  {
    if Contains(name, "Organization") then Some(Organisation)
    else if Contains(name, "Person") then Some(Person)
    else if Contains(name, "Event") then Some(Event)
    else if Contains(name, "Place") then Some(Place)
    else None
  }

  /**
   * The tests run in the order Organization, Person, Event, Place: a name
   * goes to the first category whose word it contains.
   */
  lemma MetaGroupPriority(name: string)
    ensures Contains(name, "Organization") ==> MetaGroup(name) == Some(Organisation)
    ensures !Contains(name, "Organization") && Contains(name, "Person") ==> MetaGroup(name) == Some(Person)
    ensures !Contains(name, "Organization") && !Contains(name, "Person") && Contains(name, "Event") ==>
      MetaGroup(name) == Some(Event)
    ensures (!Contains(name, "Organization") && !Contains(name, "Person") && !Contains(name, "Event")
             && Contains(name, "Place")) ==> MetaGroup(name) == Some(Place)
  {
  }

  /** The bucket a META row is routed to; the two path rows are routed nowhere. */
  function MetaRoute(m: Meta): Option<Category>
  {
    if m.name == PathLabelName || m.name == PathGuidName then None else MetaGroup(m.name)
  }

  /** `meta_id if meta_id else ""` */
  function QcodeOf(id: Option<string>): string
  {
    match id
    case Some(q) => q
    case None => ""
  }

  /** The tag a category META row yields: it has no `parent` key. */
  function MetaTag(m: Meta, c: Category): Tag
  {
    NewTag(m.value, QcodeOf(m.id), CategoryScheme(c), Missing)
  }

  /** `order` lists the keys of `m` once each, in insertion order (Python dicts keep it). */
  ghost predicate KeysInOrder(order: seq<Score>, m: map<Score, seq<string>>)
  {
    && (forall i, j :: 0 <= i < j < |order| ==> order[i] != order[j])
    && (forall s :: s in m <==> s in order)
  }

  /** The locals of the first loop: `response_dict`, `path_labels` (with its key order) and `path_guids`. */
  datatype ScanState = ScanState(
    dict: Buckets,
    labelOrder: seq<Score>,
    labels: map<Score, seq<string>>,
    guids: map<Score, seq<string>>)

  const EmptyScan: ScanState := ScanState(EmptyBuckets, [], map[], map[])

  /** One iteration of the loop over the META rows. */
  function ScanStep(st: ScanState, m: Meta): ScanState
  {
    if m.name == PathLabelName then
      st.(labelOrder := if m.score in st.labels then st.labelOrder else st.labelOrder + [m.score],
          labels := st.labels[m.score := PathSegments(m.value)])
    else if m.name == PathGuidName then
      st.(guids := st.guids[m.score := PathSegments(m.value)])
    else
      match MetaGroup(m.name)
      case None => st
      case Some(g) => st.(dict := Insert(st.dict, g, MetaTag(m, g)))
  }

  /** The state after the loop over `metas`. */
  function Scan(metas: seq<Meta>): ScanState
  {
    if metas == [] then EmptyScan else ScanStep(Scan(metas[..|metas| - 1]), metas[|metas| - 1])
  }

  /** `path_guids.get(score, [])` */
  function GuidsFor(guids: map<Score, seq<string>>, score: Score): seq<string>
  {
    if score in guids then guids[score] else []
  }

  function LabelsFor(labels: map<Score, seq<string>>, score: Score): seq<string>
  {
    if score in labels then labels[score] else []
  }

  /** The label and guid paths of `score` have equal length, so its chain is not skipped. */
  predicate ChainMatched(labels: map<Score, seq<string>>, guids: map<Score, seq<string>>, score: Score)
  {
    |LabelsFor(labels, score)| == |GuidsFor(guids, score)|
  }

  /**
   * The subject candidates of one chain: the zipped (label, guid) pairs in
   * order, the first without a parent and each later one pointing to the
   * previous pair's guid.
   */
  function ChainTags(labels: seq<string>, guids: seq<string>): (chain: seq<Tag>)
    requires |labels| == |guids|
    ensures |chain| == |labels|
  {
    ChainFrom(labels, guids, NoParent)
  }

  /** The chain from a given `parent_qcode` on: the loop `for label, guid in zip(labels, guids)`. */
  function ChainFrom(labels: seq<string>, guids: seq<string>, parent: ParentLink): (chain: seq<Tag>)
    requires |labels| == |guids|
    ensures |chain| == |labels|
  {
    if labels == [] then []
    else [NewTag(labels[0], guids[0], MediaTopicScheme, parent)] + ChainFrom(labels[1..], guids[1..], ParentIs(guids[0]))
  }

  /** Link `i` of a chain pairs the `i`-th label and guid and points to the guid before it. */
  lemma {:induction false} ChainFromLink(labels: seq<string>, guids: seq<string>, parent: ParentLink, i: nat)
    requires |labels| == |guids| && i < |labels|
    ensures ChainFrom(labels, guids, parent)[i]
      == NewTag(labels[i], guids[i], MediaTopicScheme, if i == 0 then parent else ParentIs(guids[i - 1]))
  {
    if i > 0 {
      ChainFromLink(labels[1..], guids[1..], ParentIs(guids[0]), i - 1);
      if i > 1 {
        assert guids[1..][i - 2] == guids[i - 1];
      }
    }
  }

  /** Link `i` of `ChainTags`: the first has no parent, each later one the previous guid. */
  lemma ChainTagsLink(labels: seq<string>, guids: seq<string>, i: nat)
    requires |labels| == |guids| && i < |labels|
    ensures ChainTags(labels, guids)[i]
      == NewTag(labels[i], guids[i], MediaTopicScheme, if i == 0 then NoParent else ParentIs(guids[i - 1]))
  {
    ChainFromLink(labels, guids, NoParent, i);
  }

  /** One iteration of the loop over `path_labels.items()`: a chain whose paths differ in length is skipped. */
  function MatchChain(subject: seq<Tag>, labels: seq<string>, guids: seq<string>): seq<Tag>
  {
    if |labels| != |guids| then subject else AddAll(subject, ChainTags(labels, guids))
  }

  /** The `subject` bucket after matching the chains of the scores in `order`. */
  function MatchAll(subject: seq<Tag>, order: seq<Score>, labels: map<Score, seq<string>>, guids: map<Score, seq<string>>): seq<Tag>
  {
    if order == [] then subject
    else
      var score := order[|order| - 1];
      MatchChain(MatchAll(subject, order[..|order| - 1], labels, guids), LabelsFor(labels, score), GuidsFor(guids, score))
  }

  /** Matching only appends to `subject`, and keeps a well-formed bucket well formed. */
  lemma {:induction false} MatchAllFacts(subject: seq<Tag>, order: seq<Score>, labels: map<Score, seq<string>>,
                                         guids: map<Score, seq<string>>)
    ensures subject <= MatchAll(subject, order, labels, guids)
    ensures BucketOk(subject) ==> BucketOk(MatchAll(subject, order, labels, guids))
  {
    if order != [] {
      var n := |order| - 1;
      var prev := MatchAll(subject, order[..n], labels, guids);
      MatchAllFacts(subject, order[..n], labels, guids);
      var ls, gs := LabelsFor(labels, order[n]), GuidsFor(guids, order[n]);
      if |ls| == |gs| {
        AddAllFacts(prev, ChainTags(ls, gs));
      }
    }
  }

  /** What `transform_xml_response` returns for the META rows `metas`. */
  function AnalyzeSpec(metas: seq<Meta>): Buckets
  {
    var st := Scan(metas);
    st.dict.Put(Subject, MatchAll(st.dict.subject, st.labelOrder, st.labels, st.guids))
  }

  /** The local state of one `transform_xml_response` call. */
  class Normalizer {
    var responseDict: Buckets
    var labelOrder: seq<Score>
    var pathLabels: map<Score, seq<string>>
    var pathGuids: map<Score, seq<string>>

    ghost predicate Valid()
      reads this
    {
      BucketsOk(responseDict) && KeysInOrder(labelOrder, pathLabels)
    }

    function State(): ScanState
      reads this
    {
      ScanState(responseDict, labelOrder, pathLabels, pathGuids)
    }

    constructor ()
      ensures Valid() && State() == EmptyScan
    {
      responseDict := EmptyBuckets;
      labelOrder := [];
      pathLabels := map[];
      pathGuids := map[];
    }

    /** `add_to_dict`: keeps every bucket free of empty qcodes and of duplicates. */
    method AddToDict(group: Category, tag: Tag)
      requires Valid()
      modifies this
      ensures Valid()
      ensures State() == old(State()).(dict := Insert(old(responseDict), group, tag))
    {
      var bucket := responseDict.Get(group);
      if tag.qcode != "" && tag !in bucket {
        responseDict := responseDict.Put(group, bucket + [tag]);
      }
    }

    /** The body of the loop over the META elements. */
    method ProcessMeta(m: Meta)
      requires Valid()
      modifies this
      ensures Valid()
      ensures State() == ScanStep(old(State()), m)
    {
      if m.name == PathLabelName {
        if m.score !in pathLabels {
          labelOrder := labelOrder + [m.score];
        }
        pathLabels := pathLabels[m.score := PathSegments(m.value)];
      } else if m.name == PathGuidName {
        pathGuids := pathGuids[m.score := PathSegments(m.value)];
      } else {
        var group := MetaGroup(m.name);
        if group.Some? {
          var tagData := NewTag(m.value, QcodeOf(m.id), CategoryScheme(group.value), Missing);
          AddToDict(group.value, tagData);
        }
      }
    }

    /** The inner loop over `zip(labels, guids)`, carrying `parent_qcode`. */
    method AddChain(labels: seq<string>, guids: seq<string>)
      requires Valid()
      requires |labels| == |guids|
      modifies this
      ensures Valid()
      ensures State() == old(State()).(dict := old(responseDict).Put(Subject,
        AddAll(old(responseDict).subject, ChainTags(labels, guids))))
    {
      var parentQcode := NoParent;
      for j := 0 to |labels|
        invariant Valid()
        invariant labelOrder == old(labelOrder) && pathLabels == old(pathLabels) && pathGuids == old(pathGuids)
        invariant parentQcode == if j == 0 then NoParent else ParentIs(guids[j - 1])
        invariant responseDict == old(responseDict).Put(Subject, AddAll(old(responseDict).subject, ChainTags(labels, guids)[..j]))
      {
        var tagData := NewTag(labels[j], guids[j], MediaTopicScheme, parentQcode);
        ChainTagsLink(labels, guids, j);
        assert ChainTags(labels, guids)[..j + 1][..j] == ChainTags(labels, guids)[..j];
        AddToDict(Subject, tagData);
        parentQcode := ParentIs(guids[j]);
      }
      assert ChainTags(labels, guids)[..|labels|] == ChainTags(labels, guids);
    }

    /** The loop over `path_labels.items()` that zips each score's label and guid paths into `subject`. */
    method MatchPaths()
      requires Valid()
      modifies this
      ensures Valid()
      ensures State() == old(State()).(dict := old(responseDict).Put(Subject,
        MatchAll(old(responseDict).subject, labelOrder, pathLabels, pathGuids)))
    {
      for i := 0 to |labelOrder|
        invariant Valid()
        invariant labelOrder == old(labelOrder) && pathLabels == old(pathLabels) && pathGuids == old(pathGuids)
        invariant responseDict == old(responseDict).Put(Subject,
          MatchAll(old(responseDict).subject, labelOrder[..i], pathLabels, pathGuids))
      {
        var score := labelOrder[i];
        var labels := pathLabels[score];
        var guids := if score in pathGuids then pathGuids[score] else [];
        assert labelOrder[..i + 1][..i] == labelOrder[..i];
        assert labels == LabelsFor(pathLabels, score) && guids == GuidsFor(pathGuids, score);
        if |labels| == |guids| {
          AddChain(labels, guids);
        }
      }
      assert labelOrder[..|labelOrder|] == labelOrder;
    }
  }

  /** `transform_xml_response` over the parsed META rows. */
  method TransformXmlResponse(metas: seq<Meta>) returns (r: Buckets)
    ensures r == AnalyzeSpec(metas)
    ensures BucketsOk(r)
  {
    var n := new Normalizer();
    for i := 0 to |metas|
      invariant n.Valid()
      invariant n.State() == Scan(metas[..i])
    {
      assert metas[..i + 1][..i] == metas[..i];
      n.ProcessMeta(metas[i]);
    }
    assert metas[..|metas|] == metas;
    n.MatchPaths();
    r := n.responseDict;
  }

  // Properties of the normaliser

  /** The tags of the META rows routed to `c`, in document order, before de-duplication. */
  function RoutedTags(metas: seq<Meta>, c: Category): seq<Tag>
  {
    if metas == [] then []
    else
      var n := |metas| - 1;
      RoutedTags(metas[..n], c) + (if MetaRoute(metas[n]) == Some(c) then [MetaTag(metas[n], c)] else [])
  }

  /** Row `m` is routed to `c` and yields the tag `t`. */
  predicate RoutedRow(m: Meta, c: Category, t: Tag)
  {
    MetaRoute(m) == Some(c) && MetaTag(m, c) == t
  }

  /** A tag is listed for `c` iff some row routed to `c` yields it. */
  lemma RoutedTagsMembership(metas: seq<Meta>, c: Category, t: Tag)
    ensures t in RoutedTags(metas, c) <==> exists k :: 0 <= k < |metas| && RoutedRow(metas[k], c, t)
  {
    if t in RoutedTags(metas, c) {
      var k := RoutedTagsSource(metas, c, t);
    }
    forall k | 0 <= k < |metas| && RoutedRow(metas[k], c, t)
      ensures t in RoutedTags(metas, c)
    {
      RoutedTagsKeep(metas, c, t, k);
    }
  }

  /** Every tag in a bucket comes from a row routed to it. */
  lemma {:induction false} RoutedTagsSource(metas: seq<Meta>, c: Category, t: Tag) returns (k: nat)
    requires t in RoutedTags(metas, c)
    ensures k < |metas| && RoutedRow(metas[k], c, t)
  {
    var n := |metas| - 1;
    RoutedTagsStep(metas, c, t);
    if RoutedRow(metas[n], c, t) {
      k := n;
    } else {
      k := RoutedTagsSource(metas[..n], c, t);
      assert metas[..n][k] == metas[k];
    }
  }

  /** Every row routed to a bucket puts its tag there. */
  lemma {:induction false} RoutedTagsKeep(metas: seq<Meta>, c: Category, t: Tag, k: nat)
    requires k < |metas| && RoutedRow(metas[k], c, t)
    ensures t in RoutedTags(metas, c)
  {
    var n := |metas| - 1;
    RoutedTagsStep(metas, c, t);
    if k < n {
      var init := metas[..n];
      assert init[k] == metas[k];
      RoutedTagsKeep(init, c, t, k);
    }
  }

  /** The last row adds its own tag, if it is routed to `c`, to those of the rows before it. */
  lemma RoutedTagsStep(metas: seq<Meta>, c: Category, t: Tag)
    requires metas != []
    ensures t in RoutedTags(metas, c) <==>
      t in RoutedTags(metas[..|metas| - 1], c) || RoutedRow(metas[|metas| - 1], c, t)
  {
    var n := |metas| - 1;
    var last := if MetaRoute(metas[n]) == Some(c) then [MetaTag(metas[n], c)] else [];
    assert RoutedTags(metas, c) == RoutedTags(metas[..n], c) + last;
    assert t in last <==> RoutedRow(metas[n], c, t);
  }

  /** The loop over the META rows keeps every bucket valid, keeps the label key order, and never fills `subject`. */
  lemma {:induction false} ScanInvariant(metas: seq<Meta>)
    ensures BucketsOk(Scan(metas).dict)
    ensures KeysInOrder(Scan(metas).labelOrder, Scan(metas).labels)
    ensures Scan(metas).dict.subject == []
  {
    if metas != [] {
      var n := |metas| - 1;
      ScanInvariant(metas[..n]);
      var st := Scan(metas[..n]);
      var m := metas[n];
      if m.name != PathLabelName && m.name != PathGuidName && MetaGroup(m.name).Some? {
        var g := MetaGroup(m.name).value;
        var d := Insert(st.dict, g, MetaTag(m, g));
        forall c
          ensures BucketOk(d.Get(c))
        {
          assert BucketOk(st.dict.Get(c));
        }
      }
    }
  }

  /** Every bucket of the result holds only non-empty qcodes and no two equal tags. */
  lemma AnalyzeOutputOk(metas: seq<Meta>)
    ensures BucketsOk(AnalyzeSpec(metas))
  {
    var st := Scan(metas);
    ScanInvariant(metas);
    MatchAllFacts(st.dict.subject, st.labelOrder, st.labels, st.guids);
    var r := AnalyzeSpec(metas);
    forall c
      ensures BucketOk(r.Get(c))
    {
      assert BucketOk(st.dict.Get(c));
    }
  }

  lemma {:induction false} ScanBucket(metas: seq<Meta>, c: Category)
    requires c != Subject
    ensures Scan(metas).dict.Get(c) == AddAll([], RoutedTags(metas, c))
  {
    if metas != [] {
      var n := |metas| - 1;
      ScanBucket(metas[..n], c);
      var m := metas[n];
      var prev := RoutedTags(metas[..n], c);
      if MetaRoute(m) == Some(c) {
        var ts := prev + [MetaTag(m, c)];
        assert ts[..|ts| - 1] == prev;
      } else {
        assert prev + [] == prev;
      }
    }
  }

  /**
   * A category bucket is exactly the de-duplicated, non-empty-qcode tags
   * of the META rows whose name routes to that category, in document order.
   */
  lemma AnalyzeCategoryBucket(metas: seq<Meta>, c: Category)
    requires c != Subject
    ensures AnalyzeSpec(metas).Get(c) == AddAll([], RoutedTags(metas, c))
    ensures forall t :: t in AnalyzeSpec(metas).Get(c) <==>
      t.qcode != "" && exists k :: 0 <= k < |metas| && RoutedRow(metas[k], c, t)
  {
    ScanBucket(metas, c);
    forall t
      ensures t in AnalyzeSpec(metas).Get(c) <==>
        t.qcode != "" && exists k :: 0 <= k < |metas| && RoutedRow(metas[k], c, t)
    {
      RoutedTagsMembership(metas, c, t);
      AddAllMembership([], RoutedTags(metas, c), t);
    }
  }

  predicate IsPathRow(m: Meta, pathName: string, score: Score)
  {
    m.name == pathName && m.score == score
  }

  function PathMap(st: ScanState, pathName: string): map<Score, seq<string>>
  {
    if pathName == PathLabelName then st.labels else st.guids
  }

  /** The path map `pathName`'s rows build on their own: each row overwrites the entry of its score. */
  function PathRows(metas: seq<Meta>, pathName: string): map<Score, seq<string>>
  {
    if metas == [] then map[]
    else
      var n := |metas| - 1;
      var prev := PathRows(metas[..n], pathName);
      if metas[n].name == pathName then prev[metas[n].score := PathSegments(metas[n].value)] else prev
  }

  /** The loop's path maps are those the path rows build, whatever the other rows do. */
  lemma {:induction false} ScanPaths(metas: seq<Meta>, pathName: string)
    requires pathName == PathLabelName || pathName == PathGuidName
    ensures PathMap(Scan(metas), pathName) == PathRows(metas, pathName)
  {
    if metas != [] {
      var n := |metas| - 1;
      ScanPaths(metas[..n], pathName);
      StepPathMap(Scan(metas[..n]), metas[n], pathName);
    }
  }

  /** A score has a label (guid) path exactly when some `Media Topic_PATH_LABEL` (`_PATH_GUID`) row carries it. */
  lemma ScanHasPath(metas: seq<Meta>, pathName: string, score: Score)
    requires pathName == PathLabelName || pathName == PathGuidName
    ensures score in PathMap(Scan(metas), pathName) <==>
      exists k :: 0 <= k < |metas| && IsPathRow(metas[k], pathName, score)
  {
    ScanPaths(metas, pathName);
    PathRowsHas(metas, pathName, score);
  }

  lemma {:induction false} PathRowsHas(metas: seq<Meta>, pathName: string, score: Score)
    ensures score in PathRows(metas, pathName) <==>
      exists k :: 0 <= k < |metas| && IsPathRow(metas[k], pathName, score)
  {
    if metas != [] {
      var n := |metas| - 1;
      var init := metas[..n];
      PathRowsHas(init, pathName, score);
      forall k | 0 <= k < n
        ensures IsPathRow(metas[k], pathName, score) <==> IsPathRow(init[k], pathName, score)
      {
        assert init[k] == metas[k];
      }
    }
  }

  /**
   * The stored path of a score is the split of the LAST row with that name
   * and score: a later row overwrites an earlier one.
   */
  lemma ScanKeepsLastPath(metas: seq<Meta>, pathName: string, score: Score, k: nat)
    requires pathName == PathLabelName || pathName == PathGuidName
    requires k < |metas| && IsPathRow(metas[k], pathName, score)
    requires forall j :: k < j < |metas| ==> !IsPathRow(metas[j], pathName, score)
    ensures score in PathMap(Scan(metas), pathName)
    ensures PathMap(Scan(metas), pathName)[score] == PathSegments(metas[k].value)
  {
    ScanPaths(metas, pathName);
    PathRowsLast(metas, pathName, score, k);
  }

  lemma {:induction false} PathRowsLast(metas: seq<Meta>, pathName: string, score: Score, k: nat)
    requires k < |metas| && IsPathRow(metas[k], pathName, score)
    requires forall j :: k < j < |metas| ==> !IsPathRow(metas[j], pathName, score)
    ensures score in PathRows(metas, pathName)
    ensures PathRows(metas, pathName)[score] == PathSegments(metas[k].value)
  {
    var n := |metas| - 1;
    var init := metas[..n];
    if k < n {
      assert init[k] == metas[k];
      assert !IsPathRow(metas[n], pathName, score);
      forall j | k < j < |init|
        ensures !IsPathRow(init[j], pathName, score)
      {
        assert init[j] == metas[j];
      }
      PathRowsLast(init, pathName, score, k);
    }
  }

  /** One META row changes a path map only when it is that map's row, and then only at its score. */
  lemma StepPathMap(st: ScanState, m: Meta, pathName: string)
    requires pathName == PathLabelName || pathName == PathGuidName
    ensures PathMap(ScanStep(st, m), pathName)
      == if m.name == pathName then PathMap(st, pathName)[m.score := PathSegments(m.value)] else PathMap(st, pathName)
  {
  }

  /** A score's chain is matched and `t` is one of its zipped candidates. */
  predicate InMatchedChain(labels: map<Score, seq<string>>, guids: map<Score, seq<string>>, score: Score, t: Tag)
  {
    ChainMatched(labels, guids, score) && t in ChainTags(LabelsFor(labels, score), GuidsFor(guids, score))
  }

  /** One score's matching adds exactly the non-empty-qcode links of its chain, when the chain is matched. */
  lemma MatchChainMembership(prev: seq<Tag>, labels: map<Score, seq<string>>, guids: map<Score, seq<string>>, score: Score, t: Tag)
    ensures t in MatchChain(prev, LabelsFor(labels, score), GuidsFor(guids, score)) <==>
      t in prev || (t.qcode != "" && InMatchedChain(labels, guids, score, t))
  {
    var ls, gs := LabelsFor(labels, score), GuidsFor(guids, score);
    if |ls| == |gs| {
      AddAllMembership(prev, ChainTags(ls, gs), t);
    }
  }

  /** Matching the scores of `order` adds exactly the non-empty-qcode links of their matched chains. */
  lemma MatchAllMembership(subject: seq<Tag>, order: seq<Score>, labels: map<Score, seq<string>>,
                           guids: map<Score, seq<string>>, t: Tag)
    ensures t in MatchAll(subject, order, labels, guids) <==>
      t in subject || (t.qcode != "" && exists i :: 0 <= i < |order| && InMatchedChain(labels, guids, order[i], t))
  {
    MatchAllFacts(subject, order, labels, guids);
    if t in MatchAll(subject, order, labels, guids) && t !in subject {
      var i := MatchAllSource(subject, order, labels, guids, t);
    }
    forall i | 0 <= i < |order| && t.qcode != "" && InMatchedChain(labels, guids, order[i], t)
      ensures t in MatchAll(subject, order, labels, guids)
    {
      MatchAllKeep(subject, order, labels, guids, t, i);
    }
  }

  /** Matching the last score adds the links of its chain to those of the scores before it. */
  lemma MatchAllStep(subject: seq<Tag>, order: seq<Score>, labels: map<Score, seq<string>>,
                     guids: map<Score, seq<string>>, t: Tag)
    requires order != []
    ensures t in MatchAll(subject, order, labels, guids) <==>
      t in MatchAll(subject, order[..|order| - 1], labels, guids)
      || (t.qcode != "" && InMatchedChain(labels, guids, order[|order| - 1], t))
  {
    var n := |order| - 1;
    MatchChainMembership(MatchAll(subject, order[..n], labels, guids), labels, guids, order[n], t);
  }

  /** A link added by the matching comes from the matched chain of some score of `order`. */
  lemma {:induction false} MatchAllSource(subject: seq<Tag>, order: seq<Score>, labels: map<Score, seq<string>>,
                                          guids: map<Score, seq<string>>, t: Tag) returns (i: nat)
    requires t in MatchAll(subject, order, labels, guids) && t !in subject
    ensures i < |order| && t.qcode != "" && InMatchedChain(labels, guids, order[i], t)
  {
    var n := |order| - 1;
    MatchAllStep(subject, order, labels, guids, t);
    if t.qcode != "" && InMatchedChain(labels, guids, order[n], t) {
      i := n;
    } else {
      var init := order[..n];
      i := MatchAllSource(subject, init, labels, guids, t);
      assert init[i] == order[i];
    }
  }

  /** Every non-empty-qcode link of a matched chain of a score of `order` is added. */
  lemma {:induction false} MatchAllKeep(subject: seq<Tag>, order: seq<Score>, labels: map<Score, seq<string>>,
                                        guids: map<Score, seq<string>>, t: Tag, i: nat)
    requires i < |order| && t.qcode != "" && InMatchedChain(labels, guids, order[i], t)
    ensures t in MatchAll(subject, order, labels, guids)
  {
    var n := |order| - 1;
    MatchAllStep(subject, order, labels, guids, t);
    if i < n {
      var init := order[..n];
      assert init[i] == order[i];
      MatchAllKeep(subject, init, labels, guids, t, i);
    }
  }

  /**
   * `subject` holds exactly the non-empty-qcode candidates of the matched
   * chains: a score whose label and guid paths differ in length, or whose
   * labels have no guid path, adds nothing.
   */
  lemma AnalyzeSubjectMembership(metas: seq<Meta>, t: Tag)
    ensures t in AnalyzeSpec(metas).subject <==>
      t.qcode != "" && exists s :: s in Scan(metas).labels && InMatchedChain(Scan(metas).labels, Scan(metas).guids, s, t)
  {
    var st := Scan(metas);
    ScanInvariant(metas);
    MatchAllMembership([], st.labelOrder, st.labels, st.guids, t);
    if t.qcode != "" && exists s :: s in st.labels && InMatchedChain(st.labels, st.guids, s, t) {
      var s :| s in st.labels && InMatchedChain(st.labels, st.guids, s, t);
      assert s in st.labelOrder;
      var i :| 0 <= i < |st.labelOrder| && st.labelOrder[i] == s;
      assert InMatchedChain(st.labels, st.guids, st.labelOrder[i], t);
    }
  }

  /** Dropping a mismatched score from the iteration order leaves `subject` unchanged. */
  lemma {:induction false} MatchAllSkipsMismatched(subject: seq<Tag>, order: seq<Score>, labels: map<Score, seq<string>>,
                                                   guids: map<Score, seq<string>>, i: nat)
    requires i < |order| && !ChainMatched(labels, guids, order[i])
    ensures MatchAll(subject, order, labels, guids) == MatchAll(subject, order[..i] + order[i + 1..], labels, guids)
  {
    var n := |order| - 1;
    var init := order[..n];
    var dropped := order[..i] + order[i + 1..];
    if i == n {
      assert dropped == init;
      MatchAllLast(subject, order, labels, guids);
    } else {
      var rest := init[..i] + init[i + 1..];
      assert init[i] == order[i];
      MatchAllSkipsMismatched(subject, init, labels, guids, i);
      DropBeforeLast(order, i);
      MatchAllAppend(subject, init, rest, order[n], labels, guids);
    }
  }

  /** Removing an entry other than the last commutes with splitting off the last entry. */
  lemma DropBeforeLast<T>(s: seq<T>, i: nat)
    requires i < |s| - 1
    ensures var init := s[..|s| - 1];
      && s == init + [s[|s| - 1]]
      && s[..i] + s[i + 1..] == init[..i] + init[i + 1..] + [s[|s| - 1]]
  {
    var n := |s| - 1;
    assert s[i + 1..] == s[..n][i + 1..] + [s[n]];
  }

  /** Orders that match to the same `subject` still do after the same score is appended to both. */
  lemma MatchAllAppend(subject: seq<Tag>, a: seq<Score>, b: seq<Score>, score: Score,
                       labels: map<Score, seq<string>>, guids: map<Score, seq<string>>)
    requires MatchAll(subject, a, labels, guids) == MatchAll(subject, b, labels, guids)
    ensures MatchAll(subject, a + [score], labels, guids) == MatchAll(subject, b + [score], labels, guids)
  {
    assert (a + [score])[..|a|] == a;
    assert (b + [score])[..|b|] == b;
  }

  /** `MatchAll` over a non-empty order: the chains of all but the last score, then the last one's. */
  lemma MatchAllLast(subject: seq<Tag>, order: seq<Score>, labels: map<Score, seq<string>>, guids: map<Score, seq<string>>)
    requires order != []
    ensures var n := |order| - 1;
      MatchAll(subject, order, labels, guids)
        == MatchChain(MatchAll(subject, order[..n], labels, guids), LabelsFor(labels, order[n]), GuidsFor(guids, order[n]))
  {
  }

  /** The stored path is the META value with its leading root placeholder removed: joining it back restores the value. */
  lemma PathSegmentsRoundTrip(value: string)
    requires "/" <= value
    ensures |PathSegments(value)| >= 1
    ensures "/" + Join(PathSegments(value), "/") == value
  {
    SplitJoinRoundTrip(value, "/");
    var pieces := Split(value, "/");
    assert pieces == [""] + Split(value[1..], "/");
    assert pieces[1..] == PathSegments(value);
  }

  /** `split("/")[1:]` undoes writing the segments out as a rooted path. */
  lemma PathSegmentsOfPath(segments: seq<string>)
    requires |segments| >= 1
    requires forall k :: 0 <= k < |segments| ==> !Contains(segments[k], "/")
    ensures PathSegments("/" + Join(segments, "/")) == segments
  {
    var joined := Join(segments, "/");
    assert !Contains("", "/");
    SplitAcrossSep("", "/", joined);
    assert "" + "/" + joined == "/" + joined;
    SplitOfJoin(segments, "/");
  }

  /** A chain whose guids are non-empty and pairwise distinct is a well-formed bucket. */
  lemma ChainTagsOk(labels: seq<string>, guids: seq<string>)
    requires |labels| == |guids|
    requires forall k :: 0 <= k < |guids| ==> guids[k] != ""
    requires forall i, j :: 0 <= i < j < |guids| ==> guids[i] != guids[j]
    ensures BucketOk(ChainTags(labels, guids))
  {
    var chain := ChainTags(labels, guids);
    forall i | 0 <= i < |chain|
      ensures chain[i].qcode != ""
    {
      ChainTagsLink(labels, guids, i);
      assert chain[i] == NewTag(labels[i], guids[i], MediaTopicScheme, if i == 0 then NoParent else ParentIs(guids[i - 1]));
    }
    forall i, j | 0 <= i < j < |chain|
      ensures chain[i] != chain[j]
    {
      ChainTagsLink(labels, guids, i);
      ChainTagsLink(labels, guids, j);
      assert chain[i] == NewTag(labels[i], guids[i], MediaTopicScheme, if i == 0 then NoParent else ParentIs(guids[i - 1]));
      assert chain[j] == NewTag(labels[j], guids[j], MediaTopicScheme, if j == 0 then NoParent else ParentIs(guids[j - 1]));
    }
  }

  /**
   * The META rows of one score, a label path and a guid path: every segment
   * after the empty root is kept (so `/A/B/C` yields `A`, `B` and `C`), and
   * the subject bucket is the zipped chain when the paths have the same
   * number of segments, and empty otherwise. With non-empty, distinct guids
   * no link of the chain is dropped.
   */
  lemma {:induction false} SinglePathChain(labels: seq<string>, guids: seq<string>, score: Score)
    requires |labels| >= 1 && |guids| >= 1
    requires forall k :: 0 <= k < |labels| ==> !Contains(labels[k], "/")
    requires forall k :: 0 <= k < |guids| ==> !Contains(guids[k], "/")
    ensures var metas := [Meta(PathLabelName, "/" + Join(labels, "/"), score, None),
                          Meta(PathGuidName, "/" + Join(guids, "/"), score, None)];
      && (|labels| != |guids| ==> AnalyzeSpec(metas).subject == [])
      && (|labels| == |guids| ==> AnalyzeSpec(metas).subject == AddAll([], ChainTags(labels, guids)))
      && (|labels| == |guids| && (forall k :: 0 <= k < |guids| ==> guids[k] != "")
          && (forall i, j :: 0 <= i < j < |guids| ==> guids[i] != guids[j])
          ==> AnalyzeSpec(metas).subject == ChainTags(labels, guids))
  {
    var metas := [Meta(PathLabelName, "/" + Join(labels, "/"), score, None),
                  Meta(PathGuidName, "/" + Join(guids, "/"), score, None)];
    var subject := AnalyzeSpec(metas).subject;
    assert subject == MatchChain([], labels, guids) by {
      ScanOfPathPair(labels, guids, score);
      MatchAllLast([], [score], map[score := labels], map[score := guids]);
      assert [score][..0] == [];
    }
    if |labels| == |guids| && (forall k :: 0 <= k < |guids| ==> guids[k] != "")
       && (forall i, j :: 0 <= i < j < |guids| ==> guids[i] != guids[j]) {
      ChainTagsOk(labels, guids);
      assert [] + ChainTags(labels, guids) == ChainTags(labels, guids);
      AddAllNoDrop([], ChainTags(labels, guids));
    }
  }

  /** The loop over a label row and a guid row of one score records one path of each and no tag. */
  lemma ScanOfPathPair(labels: seq<string>, guids: seq<string>, score: Score)
    requires |labels| >= 1 && |guids| >= 1
    requires forall k :: 0 <= k < |labels| ==> !Contains(labels[k], "/")
    requires forall k :: 0 <= k < |guids| ==> !Contains(guids[k], "/")
    ensures var st := Scan([Meta(PathLabelName, "/" + Join(labels, "/"), score, None),
                            Meta(PathGuidName, "/" + Join(guids, "/"), score, None)]);
      && st.dict.subject == [] && st.labelOrder == [score]
      && st.labels == map[score := labels] && st.guids == map[score := guids]
  {
    var m0 := Meta(PathLabelName, "/" + Join(labels, "/"), score, None);
    var m1 := Meta(PathGuidName, "/" + Join(guids, "/"), score, None);
    PathSegmentsOfPath(labels);
    PathSegmentsOfPath(guids);
    var st0 := EmptyScan.(labelOrder := [score], labels := map[score := labels]);
    assert Scan([m0]) == st0 by {
      assert [m0][..0] == [];
    }
    assert [m0, m1][..1] == [m0];
    assert Scan([m0, m1]) == st0.(guids := map[score := guids]);
  }
}

=== FILE: pytext.dfy ===
/**
 * The Python built-ins the adapter relies on, stated over `seq`:
 * the substring test `t in s`, `s.split(sep)`, `sep.join(pieces)`,
 * `s.replace(old, new)` and the slice `xs[::-1]`.
 */
module PyText {

  /** `t` occurs in `s` starting at index `i`. */
  predicate OccursAt(s: string, t: string, i: nat)
  {
    i + |t| <= |s| && s[i..i + |t|] == t
  }

  /** Python's `t in s` on two strings: `t` starts at the first character of `s` or somewhere in the rest. */
  function Contains(s: string, t: string): bool
    decreases |s|
  {
    if t <= s then true
    else if s == [] then false
    else Contains(s[1..], t)
  }

  /** `t in s` holds exactly when `t` occurs in `s` at some index. */
  lemma {:induction false} ContainsIff(s: string, t: string)
    ensures Contains(s, t) <==> exists i: nat :: OccursAt(s, t, i)
    decreases |s|
  {
    if t <= s {
      assert OccursAt(s, t, 0);
    } else if s != [] {
      ShiftOccurrence(s, t);
      ContainsIff(s[1..], t);
    }
  }

  /** An occurrence past the first character of `s` is an occurrence in `s[1..]`. */
  lemma ShiftOccurrence(s: string, t: string)
    requires s != [] && !(t <= s)
    ensures (exists i: nat :: OccursAt(s, t, i)) <==> (exists i: nat :: OccursAt(s[1..], t, i))
  {
    PrefixOccurrence(s, s, t);
    forall i: nat | OccursAt(s, t, i)
      ensures i > 0 && OccursAt(s[1..], t, i - 1)
    {
      assert i > 0;
      assert s[1..][i - 1..i - 1 + |t|] == s[i..i + |t|];
    }
    forall i: nat | OccursAt(s[1..], t, i)
      ensures OccursAt(s, t, i + 1)
    {
      assert s[1..][i..i + |t|] == s[i + 1..i + 1 + |t|];
    }
  }

  /** An occurrence at the start of a prefix of `s` is an occurrence at the start of `s`. */
  lemma PrefixOccurrence(p: string, s: string, t: string)
    requires p <= s
    ensures OccursAt(p, t, 0) ==> t <= s
  {
    if OccursAt(p, t, 0) {
      assert p[0..|t|] == s[0..|t|];
    }
  }

  /** Python's `sep.join(pieces)` for a non-empty list of pieces. */
  function Join(pieces: seq<string>, sep: string): string
    requires |pieces| >= 1
  {
    if |pieces| == 1 then pieces[0] else pieces[0] + sep + Join(pieces[1..], sep)
  }

  /**
   * Python's `s.split(sep)` for a non-empty separator: the text between
   * the occurrences of `sep` found scanning from the left, including an
   * empty first piece when `s` starts with `sep`.
   */
  function Split(s: string, sep: string): (pieces: seq<string>)
    requires sep != []
    ensures |pieces| >= 1
    decreases |s|
  {
    if sep <= s then
      [""] + Split(s[|sep|..], sep)
    else if s == [] then
      [""]
    else
      var rest := Split(s[1..], sep);
      [[s[0]] + rest[0]] + rest[1..]
  }

  /** Python's `s.replace(old, new)` for a non-empty `old`: every occurrence, scanning left to right, is replaced. */
  function ReplaceAll(s: string, target: string, replacement: string): string
    requires target != []
    decreases |s|
  {
    if target <= s then
      replacement + ReplaceAll(s[|target|..], target, replacement)
    else if s == [] then
      []
    else
      [s[0]] + ReplaceAll(s[1..], target, replacement)
  }

  /** Replacing with something no longer than the target never lengthens the text. */
  lemma {:induction false} ReplaceShrinks(s: string, target: string, replacement: string)
    requires target != [] && |replacement| <= |target|
    ensures |ReplaceAll(s, target, replacement)| <= |s|
    decreases |s|
  {
    if target <= s {
      ReplaceShrinks(s[|target|..], target, replacement);
    } else if s != [] {
      ReplaceShrinks(s[1..], target, replacement);
    }
  }

  /** A text without the target is left as it is. */
  lemma {:induction false} ReplaceAbsent(s: string, target: string, replacement: string)
    requires target != [] && !Contains(s, target)
    ensures ReplaceAll(s, target, replacement) == s
    decreases |s|
  {
    if s != [] {
      ReplaceAbsent(s[1..], target, replacement);
      assert [s[0]] + s[1..] == s;
    }
  }

  /** Python's `xs[::-1]`. */
  function Reverse<T>(xs: seq<T>): (r: seq<T>)
    ensures |r| == |xs|
    ensures forall i :: 0 <= i < |xs| ==> r[i] == xs[|xs| - 1 - i]
  {
    if xs == [] then [] else Reverse(xs[1..]) + [xs[0]]
  }

  /** Gluing one character to the first piece glues it to the whole join. */
  lemma JoinConsFirst(c: char, first: string, rest: seq<string>, sep: string)
    ensures Join([[c] + first] + rest, sep) == [c] + Join([first] + rest, sep)
  {
    if rest != [] {
      assert ([[c] + first] + rest)[1..] == rest;
      assert ([first] + rest)[1..] == rest;
    }
  }

  /** The first piece of a join is a prefix of it. */
  lemma {:induction false} JoinStartsWithFirst(pieces: seq<string>, sep: string)
    requires |pieces| >= 1
    ensures pieces[0] <= Join(pieces, sep)
  {
  }

  /** Splitting and joining back with the same separator gives the original text. */
  lemma {:induction false} SplitJoinRoundTrip(s: string, sep: string)
    requires sep != []
    ensures Join(Split(s, sep), sep) == s
    decreases |s|
  {
    if sep <= s {
      SplitJoinRoundTrip(s[|sep|..], sep);
      JoinSplitAtSep(s, sep);
    } else if s != [] {
      SplitJoinRoundTrip(s[1..], sep);
      JoinSplitAtChar(s, sep);
    }
  }

  /** The round trip across a leading separator, given the round trip of the text after it. */
  lemma JoinSplitAtSep(s: string, sep: string)
    requires sep != [] && sep <= s
    requires Join(Split(s[|sep|..], sep), sep) == s[|sep|..]
    ensures Join(Split(s, sep), sep) == s
  {
    var tail := s[|sep|..];
    var rest := Split(tail, sep);
    calc {
      Join(Split(s, sep), sep);
      Join([""] + rest, sep);
      { JoinCons("", rest, sep); }
      "" + sep + Join(rest, sep);
      { assert "" + sep == sep; }
      sep + tail;
      { assert s[..|sep|] == sep; }
      s;
    }
  }

  /** The round trip across a leading character that starts no separator, given the round trip of the rest. */
  lemma JoinSplitAtChar(s: string, sep: string)
    requires sep != [] && !(sep <= s) && s != []
    requires Join(Split(s[1..], sep), sep) == s[1..]
    ensures Join(Split(s, sep), sep) == s
  {
    var rest := Split(s[1..], sep);
    assert Split(s, sep) == [[s[0]] + rest[0]] + rest[1..];
    JoinConsFirst(s[0], rest[0], rest[1..], sep);
    assert [rest[0]] + rest[1..] == rest;
    assert s == [s[0]] + s[1..];
  }

  /** No piece of a split contains the separator. */
  lemma {:induction false} SplitPiecesAvoidSep(s: string, sep: string)
    requires sep != []
    ensures forall k :: 0 <= k < |Split(s, sep)| ==> !Contains(Split(s, sep)[k], sep)
    decreases |s|
  {
    var pieces := Split(s, sep);
    if sep <= s {
      var rest := Split(s[|sep|..], sep);
      SplitPiecesAvoidSep(s[|sep|..], sep);
      assert pieces == [""] + rest;
      assert !Contains("", sep);
      forall k | 0 <= k < |pieces|
        ensures !Contains(pieces[k], sep)
      {
        if k > 0 {
          assert pieces[k] == rest[k - 1];
        }
      }
    } else if s != [] {
      var rest := Split(s[1..], sep);
      SplitPiecesAvoidSep(s[1..], sep);
      var head := [s[0]] + rest[0];
      SplitJoinRoundTrip(s[1..], sep);
      JoinStartsWithFirst(rest, sep);
      assert rest[0] <= s[1..];
      assert head <= s;
      PrefixOccurrence(head, s, sep);
      assert !OccursAt(head, sep, 0);
      assert head[1..] == rest[0];
      assert !Contains(head, sep);
      assert pieces == [head] + rest[1..];
      forall k | 0 <= k < |pieces|
        ensures !Contains(pieces[k], sep)
      {
        if k > 0 {
          assert pieces[k] == rest[k];
        }
      }
    } else {
      assert pieces == [""];
      assert !Contains("", sep);
    }
  }

  /** Joining a piece in front of a non-empty list puts it and a separator in front of their join. */
  lemma JoinCons(first: string, rest: seq<string>, sep: string)
    requires |rest| >= 1
    ensures Join([first] + rest, sep) == first + sep + Join(rest, sep)
  {
    assert ([first] + rest)[1..] == rest;
  }

  /** `s.replace(old, new)` equals `new.join(s.split(old))`. */
  lemma {:induction false} ReplaceIsJoinOfSplit(s: string, target: string, replacement: string)
    requires target != []
    ensures ReplaceAll(s, target, replacement) == Join(Split(s, target), replacement)
    decreases |s|
  {
    if target <= s {
      var tail := s[|target|..];
      ReplaceIsJoinOfSplit(tail, target, replacement);
      var rest := Split(tail, target);
      assert Split(s, target) == [""] + rest;
      JoinCons("", rest, replacement);
      assert ReplaceAll(s, target, replacement) == replacement + ReplaceAll(tail, target, replacement);
      assert "" + replacement == replacement;
    } else if s != [] {
      var tail := s[1..];
      ReplaceIsJoinOfSplit(tail, target, replacement);
      var rest := Split(tail, target);
      assert Split(s, target) == [[s[0]] + rest[0]] + rest[1..];
      assert ReplaceAll(s, target, replacement) == [s[0]] + ReplaceAll(tail, target, replacement);
      JoinConsFirst(s[0], rest[0], rest[1..], replacement);
      assert [rest[0]] + rest[1..] == rest;
    }
  }

  /** A text that lacks the first character of `t` does not contain `t`. */
  lemma AbsentFirstChar(s: string, t: string)
    requires t != [] && t[0] !in s
    ensures !Contains(s, t)
  {
    forall i: nat
      ensures !OccursAt(s, t, i)
    {
      if i + |t| <= |s| {
        assert s[i..i + |t|][0] == s[i];
        assert s[i] in s;
      }
    }
    ContainsIff(s, t);
  }

  /** A text free of the separator splits into itself alone. */
  lemma {:induction false} SplitWithoutSep(x: string, sep: string)
    requires sep != [] && !Contains(x, sep)
    ensures Split(x, sep) == [x]
    decreases |x|
  {
    if x != [] {
      SplitWithoutSep(x[1..], sep);
      assert [x[0]] + x[1..] == x;
    }
  }

  /** A one-character separator after a separator-free piece closes that piece. */
  lemma {:induction false} SplitAcrossSep(x: string, sep: string, t: string)
    requires |sep| == 1 && !Contains(x, sep)
    ensures Split(x + sep + t, sep) == [x] + Split(t, sep)
    decreases |x|
  {
    var s := x + sep + t;
    if x == [] {
      assert s == sep + t;
      assert sep <= s;
      assert s[|sep|..] == t;
    } else {
      assert !(sep <= x);
      assert s[0..1] == x[0..1];
      assert !(sep <= s);
      SplitAcrossSep(x[1..], sep, t);
      assert s[1..] == x[1..] + sep + t;
      assert [x[0]] + x[1..] == x;
    }
  }

  /**
   * Joining separator-free pieces with a one-character separator and
   * splitting the result gives the pieces back: the inverse of
   * `SplitJoinRoundTrip`.
   */
  lemma {:induction false} SplitOfJoin(pieces: seq<string>, sep: string)
    requires |sep| == 1 && |pieces| >= 1
    requires forall k :: 0 <= k < |pieces| ==> !Contains(pieces[k], sep)
    ensures Split(Join(pieces, sep), sep) == pieces
    decreases |pieces|
  {
    if |pieces| == 1 {
      SplitWithoutSep(pieces[0], sep);
    } else {
      var rest := pieces[1..];
      assert forall k :: 0 <= k < |rest| ==> rest[k] == pieces[k + 1];
      SplitOfJoin(rest, sep);
      SplitAcrossSep(pieces[0], sep, Join(rest, sep));
      assert [pieces[0]] + rest == pieces;
    }
  }
}

=== FILE: request.dfy ===
/**
 * `html_to_xml`: the CLASSIFY request sent to the analyze endpoint. The
 * article's headline, abstract, body and slugline fill the four slots of an
 * XML template, and the filled template is then stripped of six literal
 * markup strings.
 */
module RequestBuilder {
  import opened Wrappers
  import opened PyText

  // The fixed text of the template, between and around its four `{}` slots.
  const Seg0: string := "<?xml version=\"1.0\" ?>\n                <request op=\"CLASSIFY\">\n                <document>\n                    <body>&lt;?xml version=&quot;1.0&quot; encoding=&quot;UTF-8&quot;?&gt;\n                &lt;story&gt;\n                    &lt;headline&gt;"
  const Seg1: string := "&lt;/headline&gt;\n                    &lt;headline_extended&gt;"
  const Seg2: string := "&lt;/headline_extended&gt;\n                    &lt;body_html&gt;"
  const Seg3: string := "&lt;/body_html&gt;\n                    &lt;slugline&gt;"
  const Seg4: string := "&lt;/slugline&gt;\n                &lt;/story&gt;\n                </body>\n                </document>\n                </request>\n                "

  /** `xml_template.format(headline, headline_extended, body_html, slugline)`. */
  function FillTemplate(headline: string, headlineExtended: string, bodyHtml: string, slugline: string): string
  {
    Seg0 + headline + Seg1 + headlineExtended + Seg2 + bodyHtml + Seg3 + slugline + Seg4
  }

  /** A slice that ends inside the first part of a concatenation is a slice of that part. */
  lemma SliceOfPrefix(p: string, q: string, i: nat, j: nat)
    requires i <= j <= |p|
    ensures (p + q)[i..j] == p[i..j]
  {
  }

  /** The second part of a concatenation sits right after the first. */
  lemma LastPart(p: string, q: string)
    ensures (p + q)[|p|..|p| + |q|] == q
  {
  }

  /**
   * Each field lands in its own slot: the headline right after the first
   * segment, the extended headline after the second, the body after the
   * third and the slugline after the fourth, each slot as long as its field.
   */
  lemma FillTemplateSlots(headline: string, headlineExtended: string, bodyHtml: string, slugline: string)
    ensures var xml := FillTemplate(headline, headlineExtended, bodyHtml, slugline);
      var h := |Seg0|;
      var x := h + |headline| + |Seg1|;
      var b := x + |headlineExtended| + |Seg2|;
      var s := b + |bodyHtml| + |Seg3|;
      && |xml| == s + |slugline| + |Seg4|
      && xml[h..h + |headline|] == headline
      && xml[x..x + |headlineExtended|] == headlineExtended
      && xml[b..b + |bodyHtml|] == bodyHtml
      && xml[s..s + |slugline|] == slugline
  {
    Slots(Seg0, Seg1, Seg2, Seg3, Seg4, headline, headlineExtended, bodyHtml, slugline);
  }

  /** The slots of any five-segment template. */
  lemma Slots(s0: string, s1: string, s2: string, s3: string, s4: string, f1: string, f2: string, f3: string, f4: string)
    ensures var xml := s0 + f1 + s1 + f2 + s2 + f3 + s3 + f4 + s4;
      var h := |s0|;
      var x := h + |f1| + |s1|;
      var b := x + |f2| + |s2|;
      var s := b + |f3| + |s3|;
      && |xml| == s + |f4| + |s4|
      && xml[h..h + |f1|] == f1
      && xml[x..x + |f2|] == f2
      && xml[b..b + |f3|] == f3
      && xml[s..s + |f4|] == f4
  {
    var a1 := s0 + f1;
    var b1 := a1 + s1;
    var a2 := b1 + f2;
    var b2 := a2 + s2;
    var a3 := b2 + f3;
    var b3 := a3 + s3;
    var a4 := b3 + f4;
    var h, x, b, s := |s0|, |b1|, |b2|, |b3|;
    LastPart(s0, f1);
    LastPart(b1, f2);
    LastPart(b2, f3);
    LastPart(b3, f4);
    SliceOfPrefix(a4, s4, s, s + |f4|);
    SliceOfPrefix(a4, s4, b, b + |f3|);
    SliceOfPrefix(b3, f4, b, b + |f3|);
    SliceOfPrefix(a3, s3, b, b + |f3|);
    SliceOfPrefix(a4, s4, x, x + |f2|);
    SliceOfPrefix(b3, f4, x, x + |f2|);
    SliceOfPrefix(a3, s3, x, x + |f2|);
    SliceOfPrefix(b2, f3, x, x + |f2|);
    SliceOfPrefix(a2, s2, x, x + |f2|);
    SliceOfPrefix(a4, s4, h, h + |f1|);
    SliceOfPrefix(b3, f4, h, h + |f1|);
    SliceOfPrefix(a3, s3, h, h + |f1|);
    SliceOfPrefix(b2, f3, h, h + |f1|);
    SliceOfPrefix(a2, s2, h, h + |f1|);
    SliceOfPrefix(b1, f2, h, h + |f1|);
    SliceOfPrefix(a1, s1, h, h + |f1|);
  }

  /**
   * `clean_html_content`: removes, one after the other and each in a single
   * left-to-right pass, `<p>`, `</p>`, `<br>`, `&nbsp;`, `&amp;` and
   * `&lt;&gt;`. It never lengthens the text.
   */
  function CleanHtmlContent(s: string): (r: string)
    ensures |r| <= |s|
  {
    var s1 := ReplaceAll(s, "<p>", "");
    var s2 := ReplaceAll(s1, "</p>", "");
    var s3 := ReplaceAll(s2, "<br>", "");
    var s4 := ReplaceAll(s3, "&nbsp;", "");
    var s5 := ReplaceAll(s4, "&amp;", "");
    ReplaceShrinks(s, "<p>", "");
    ReplaceShrinks(s1, "</p>", "");
    ReplaceShrinks(s2, "<br>", "");
    ReplaceShrinks(s3, "&nbsp;", "");
    ReplaceShrinks(s4, "&amp;", "");
    ReplaceShrinks(s5, "&lt;&gt;", "");
    ReplaceAll(s5, "&lt;&gt;", "")
  }

  /** Text with no `<` and no `&` holds none of the six strings and comes out of the cleaning unchanged. */
  lemma CleanLeavesPlainText(s: string)
    requires '<' !in s && '&' !in s
    ensures CleanHtmlContent(s) == s
  {
    AbsentFirstChar(s, "<p>");
    ReplaceAbsent(s, "<p>", "");
    AbsentFirstChar(s, "</p>");
    ReplaceAbsent(s, "</p>", "");
    AbsentFirstChar(s, "<br>");
    ReplaceAbsent(s, "<br>", "");
    AbsentFirstChar(s, "&nbsp;");
    ReplaceAbsent(s, "&nbsp;", "");
    AbsentFirstChar(s, "&amp;");
    ReplaceAbsent(s, "&amp;", "");
    AbsentFirstChar(s, "&lt;&gt;");
    ReplaceAbsent(s, "&lt;&gt;", "");
  }

  /**
   * A single pass is not a fixpoint: a paragraph tag split around another
   * one is joined back together by the removal and survives.
   */
  lemma CleanIsSinglePass()
    ensures CleanHtmlContent("<<p>p>") == "<p>"
    ensures CleanHtmlContent(CleanHtmlContent("<<p>p>")) != CleanHtmlContent("<<p>p>")
  {
    assert ReplaceAll("<<p>p>", "<p>", "") == "<p>" by {
      assert !("<p>" <= "<<p>p>");
      assert "<p>" <= "<p>p>";
      assert !("<p>" <= "p>");
      assert !("<p>" <= ">");
    }
    assert ReplaceAll("<p>", "</p>", "") == "<p>" by {
      assert !("</p>" <= "<p>");
      assert !("</p>" <= "p>");
      assert !("</p>" <= ">");
    }
    assert ReplaceAll("<p>", "<br>", "") == "<p>" by {
      assert !("<br>" <= "<p>");
      assert !("<br>" <= "p>");
      assert !("<br>" <= ">");
    }
    AbsentFirstChar("<p>", "&nbsp;");
    ReplaceAbsent("<p>", "&nbsp;", "");
    AbsentFirstChar("<p>", "&amp;");
    ReplaceAbsent("<p>", "&amp;", "");
    AbsentFirstChar("<p>", "&lt;&gt;");
    ReplaceAbsent("<p>", "&lt;&gt;", "");
    assert CleanHtmlContent("<p>") == "" by {
      assert "<p>" <= "<p>";
      assert ReplaceAll("<p>", "<p>", "") == "";
      assert ReplaceAll("", "</p>", "") == "";
    }
  }

  /** The article fields `html_to_xml` reads, in the order it reads them. */
  const RequiredFields: seq<string> := ["body_html", "headline", "abstract", "slugline"]

  /** `RequiredFields[k]` is the first required field the article lacks. */
  predicate FirstMissing(content: map<string, string>, k: int)
  {
    && 0 <= k < |RequiredFields|
    && RequiredFields[k] !in content
    && (forall j :: 0 <= j < k ==> RequiredFields[j] in content)
  }

  /**
   * `html_to_xml(html_content)`: the cleaned, filled template, or the
   * `KeyError` of the first of `body_html`, `headline`, `abstract` and
   * `slugline` that the article lacks.
   */
  function HtmlToXml(content: map<string, string>): (r: Result<string, string>)
    ensures r.Failure? <==> exists k :: 0 <= k < |RequiredFields| && RequiredFields[k] !in content
    ensures r.Failure? ==> exists k :: FirstMissing(content, k) && RequiredFields[k] == r.error
    ensures r.Success? ==>
      && "headline" in content && "abstract" in content && "body_html" in content && "slugline" in content
      && r.value == CleanHtmlContent(
           FillTemplate(content["headline"], content["abstract"], content["body_html"], content["slugline"]))
  {
    if "body_html" !in content then
      assert FirstMissing(content, 0);
      Failure("body_html")
    else if "headline" !in content then
      assert FirstMissing(content, 1);
      Failure("headline")
    else if "abstract" !in content then
      assert FirstMissing(content, 2);
      Failure("abstract")
    else if "slugline" !in content then
      assert FirstMissing(content, 3);
      Failure("slugline")
    else
      assert forall k :: 0 <= k < |RequiredFields| ==> RequiredFields[k] in content;
      var bodyHtml := content["body_html"];
      var headline := content["headline"];
      var headlineExtended := content["abstract"];
      var slugline := content["slugline"];
      Success(CleanHtmlContent(FillTemplate(headline, headlineExtended, bodyHtml, slugline)))
  }
}

=== FILE: search.dfy ===
/**
 * The normaliser of the search endpoint's JSON response: the nested
 * `transform_xml_response` of `Semaphore.analyze_2`. The JSON body is taken
 * as already decoded into its `termHints` items, and the broader-term
 * endpoint (`fetch_parent_info`) as a function from a term id to its path.
 */
module SearchNormalizer {
  import opened Wrappers
  import opened PyText
  import opened TagModel

  /** A `termHints` item: its `classes`, `name` and `id`. */
  datatype TermHint = TermHint(classes: seq<string>, name: string, id: string)

  /** One `Topic` field of a broader-term path, as `fetch_parent_info` parses it. */
  datatype ParentTerm = ParentTerm(name: string, qcode: string)

  /**
   * `fetch_parent_info(qcode)`: the path of `Topic` fields in the order the
   * endpoint lists them, or `None` when the lookup fails. On failure the
   * source returns `[]`, which the caller cannot unpack into two lists, so
   * the whole search fails.
   */
  type ParentLookup = string -> Option<seq<ParentTerm>>

  /** The bucket of a hint, by membership in its classes: Organization, People, Event, Place, else subject. */
  function HintCategory(h: TermHint): (c: Category)
    ensures "Organization" in h.classes ==> c == Organisation
    ensures "Organization" !in h.classes && "People" in h.classes ==> c == Person
    ensures "Organization" !in h.classes && "People" !in h.classes && "Event" in h.classes ==> c == Event
    ensures ("Organization" !in h.classes && "People" !in h.classes && "Event" !in h.classes
             && "Place" in h.classes) ==> c == Place
    ensures c == Subject <==>
      "Organization" !in h.classes && "People" !in h.classes && "Event" !in h.classes && "Place" !in h.classes
  {
    if "Organization" in h.classes then Organisation
    else if "People" in h.classes then Person
    else if "Event" in h.classes then Event
    else if "Place" in h.classes then Place
    else Subject
  }

  /** The entry built for a hint before its parent is looked up. */
  function HintEntry(h: TermHint): Tag
  {
    NewTag(h.name, h.id, CategoryScheme(HintCategory(h)), NoParent)
  }

  /** A subject entry once its parent path is known: its parent is the first term of the reversed path. */
  function SubjectEntry(h: TermHint, parents: seq<ParentTerm>): (t: Tag)
    ensures t.name == h.name && t.qcode == h.id && t.scheme == MediaTopicScheme
    ensures t.parent == if parents == [] then NoParent else ParentIs(parents[|parents| - 1].qcode)
  {
    var entry := NewTag(h.name, h.id, MediaTopicScheme, NoParent);
    if parents != [] then entry.(parent := ParentIs(Reverse(parents)[0].qcode), scheme := MediaTopicScheme)
    else entry
  }

  /** The parent of the `i`-th broader entry of a reversed path: the next term, or none after the last. */
  function NextLink(reversed: seq<ParentTerm>, i: nat): ParentLink
  {
    if i + 1 < |reversed| then ParentIs(reversed[i + 1].qcode) else NoParent
  }

  /**
   * The `broader` entries of one subject, from the reversed path: one per
   * term, in order, each pointing to the next term and the last to none.
   */
  function BroaderChain(reversed: seq<ParentTerm>): (chain: seq<Tag>)
    ensures |chain| == |reversed|
  {
    if reversed == [] then []
    else [NewTag(reversed[0].name, reversed[0].qcode, MediaTopicScheme, NextLink(reversed, 0))] + BroaderChain(reversed[1..])
  }

  /** Entry `i` of a broader chain is the `i`-th term of the reversed path, pointing to the next term. */
  lemma {:induction false} BroaderChainLink(reversed: seq<ParentTerm>, i: nat)
    requires i < |reversed|
    ensures BroaderChain(reversed)[i] == NewTag(reversed[i].name, reversed[i].qcode, MediaTopicScheme, NextLink(reversed, i))
  {
    if i > 0 {
      BroaderChainLink(reversed[1..], i - 1);
      assert NextLink(reversed[1..], i - 1) == NextLink(reversed, i);
    }
  }

  const EmptyDocument: TagDocument := TagDocument(EmptyBuckets, [])

  /** One iteration of the loop over `termHints`; `None` when the parent lookup of a subject fails. */
  function SearchStep(doc: TagDocument, h: TermHint, lookup: ParentLookup): Option<TagDocument>
  {
    var c := HintCategory(h);
    if c != Subject then
      Some(doc.(tags := doc.tags.Put(c, doc.tags.Get(c) + [HintEntry(h)])))
    else
      match lookup(h.id)
      case None => None
      case Some(parents) =>
        Some(TagDocument(doc.tags.Put(Subject, doc.tags.subject + [SubjectEntry(h, parents)]),
                         doc.broader + BroaderChain(Reverse(parents))))
  }

  /** What the search `transform_xml_response` returns for `hints`. */
  function SearchSpec(hints: seq<TermHint>, lookup: ParentLookup): Option<TagDocument>
  {
    if hints == [] then Some(EmptyDocument)
    else
      match SearchSpec(hints[..|hints| - 1], lookup)
      case None => None
      case Some(doc) => SearchStep(doc, hints[|hints| - 1], lookup)
  }

  /** Once a prefix of the hints has failed, the whole search fails. */
  lemma {:induction false} SearchFailureSticks(hints: seq<TermHint>, i: nat, lookup: ParentLookup)
    requires i <= |hints| && SearchSpec(hints[..i], lookup) == None
    ensures SearchSpec(hints, lookup) == None
    decreases |hints|
  {
    if i < |hints| {
      var n := |hints| - 1;
      assert hints[..n][..i] == hints[..i];
      SearchFailureSticks(hints[..n], i, lookup);
    } else {
      assert hints[..i] == hints;
    }
  }

  /** The search `transform_xml_response`: appends each hint's entry to its bucket, and a subject's path to `broader`. */
  method TransformSearchResponse(hints: seq<TermHint>, lookup: ParentLookup) returns (r: Option<TagDocument>)
    ensures r == SearchSpec(hints, lookup)
  {
    var subject, organisation, person, event, place, broader := [], [], [], [], [], [];
    for i := 0 to |hints|
      invariant SearchSpec(hints[..i], lookup)
        == Some(TagDocument(Buckets(subject, organisation, person, event, place), broader))
    {
      var item := hints[i];
      assert hints[..i + 1][..i] == hints[..i];
      var entry := NewTag(item.name, item.id, CategoryScheme(HintCategory(item)), NoParent);
      if "Organization" in item.classes {
        organisation := organisation + [entry];
      } else if "People" in item.classes {
        person := person + [entry];
      } else if "Event" in item.classes {
        event := event + [entry];
      } else if "Place" in item.classes {
        place := place + [entry];
      } else {
        var found := lookup(item.id);
        if found.None? {
          SearchFailureSticks(hints, i + 1, lookup);
          return None;
        }
        var parentInfo := found.value;
        var reversedParentInfo := Reverse(parentInfo);
        if parentInfo != [] {
          entry := entry.(parent := ParentIs(reversedParentInfo[0].qcode), scheme := MediaTopicScheme);
        }
        subject := subject + [entry];
        broader := AppendBroader(broader, reversedParentInfo);
      }
    }
    assert hints[..|hints|] == hints;
    r := Some(TagDocument(Buckets(subject, organisation, person, event, place), broader));
  }

  /** The inner loop of a subject hint: one `broader` entry per term of the reversed path, each pointing to the next. */
  method AppendBroader(broader: seq<Tag>, reversedParentInfo: seq<ParentTerm>) returns (r: seq<Tag>)
    ensures r == broader + BroaderChain(reversedParentInfo)
  {
    r := broader;
    for k := 0 to |reversedParentInfo|
      invariant r == broader + BroaderChain(reversedParentInfo)[..k]
    {
      var next := if k + 1 < |reversedParentInfo| then ParentIs(reversedParentInfo[k + 1].qcode) else NoParent;
      var broaderEntry := NewTag(reversedParentInfo[k].name, reversedParentInfo[k].qcode, MediaTopicScheme, next);
      assert next == NextLink(reversedParentInfo, k);
      BroaderChainLink(reversedParentInfo, k);
      assert BroaderChain(reversedParentInfo)[..k + 1] == BroaderChain(reversedParentInfo)[..k] + [broaderEntry];
      r := r + [broaderEntry];
    }
    assert BroaderChain(reversedParentInfo)[..|reversedParentInfo|] == BroaderChain(reversedParentInfo);
  }

  // Properties of the normaliser

  /** The search fails exactly when the parent lookup of some subject hint fails. */
  lemma SearchFailsIff(hints: seq<TermHint>, lookup: ParentLookup)
    ensures SearchSpec(hints, lookup) == None <==>
      exists k :: 0 <= k < |hints| && FailingHint(hints[k], lookup)
  {
    if SearchSpec(hints, lookup) == None {
      var k := FailureCause(hints, lookup);
    } else {
      forall k | 0 <= k < |hints|
        ensures !FailingHint(hints[k], lookup)
      {
        if FailingHint(hints[k], lookup) {
          FailingHintFails(hints, k, lookup);
        }
      }
    }
  }

  /** A failing subject hint makes the search fail. */
  lemma {:induction false} FailingHintFails(hints: seq<TermHint>, k: nat, lookup: ParentLookup)
    requires k < |hints| && FailingHint(hints[k], lookup)
    ensures SearchSpec(hints, lookup) == None
    decreases |hints|
  {
    var n := |hints| - 1;
    if k < n {
      assert hints[..n][k] == hints[k];
      FailingHintFails(hints[..n], k, lookup);
    } else {
      StepFails(SearchSpec(hints[..n], lookup), hints[n], lookup);
    }
  }

  /** A failing hint fails the step after any prefix. */
  lemma StepFails(prev: Option<TagDocument>, h: TermHint, lookup: ParentLookup)
    requires FailingHint(h, lookup)
    ensures (match prev case None => None case Some(doc) => SearchStep(doc, h, lookup)) == None
  {
  }

  /** A failed search has a failing subject hint. */
  lemma {:induction false} FailureCause(hints: seq<TermHint>, lookup: ParentLookup) returns (k: nat)
    requires SearchSpec(hints, lookup) == None
    ensures k < |hints| && FailingHint(hints[k], lookup)
  {
    var n := |hints| - 1;
    var init := hints[..n];
    if SearchSpec(init, lookup) == None {
      k := FailureCause(init, lookup);
      assert hints[k] == init[k];
    } else {
      k := n;
    }
  }

  /** A subject hint whose parent lookup fails. */
  predicate FailingHint(h: TermHint, lookup: ParentLookup)
  {
    HintCategory(h) == Subject && lookup(h.id) == None
  }

  /** The hints routed to `c`, in order. */
  function Routed(hints: seq<TermHint>, c: Category): seq<TermHint>
  {
    if hints == [] then []
    else
      var n := |hints| - 1;
      Routed(hints[..n], c) + (if HintCategory(hints[n]) == c then [hints[n]] else [])
  }

  /** A hint is routed to `c` iff it is one of the hints and its classes select `c`. */
  lemma {:induction false} RoutedMembership(hints: seq<TermHint>, c: Category, h: TermHint)
    ensures h in Routed(hints, c) <==> h in hints && HintCategory(h) == c
  {
    if hints != [] {
      var n := |hints| - 1;
      RoutedMembership(hints[..n], c, h);
      assert hints == hints[..n] + [hints[n]];
      assert h in hints <==> h in hints[..n] || h == hints[n];
    }
  }

  /** The parent path of a hint, or none when its lookup fails. */
  function ParentsOf(h: TermHint, lookup: ParentLookup): seq<ParentTerm>
  {
    match lookup(h.id)
    case Some(parents) => parents
    case None => []
  }

  /** The final entry of a hint in its bucket. */
  function FinalEntry(h: TermHint, lookup: ParentLookup): Tag
  {
    if HintCategory(h) == Subject then SubjectEntry(h, ParentsOf(h, lookup)) else HintEntry(h)
  }

  /** The final entries of `hs`, one each, in order. */
  function Entries(hs: seq<TermHint>, lookup: ParentLookup): (es: seq<Tag>)
    ensures |es| == |hs|
  {
    if hs == [] then [] else Entries(hs[..|hs| - 1], lookup) + [FinalEntry(hs[|hs| - 1], lookup)]
  }

  /** Entry `i` is the final entry of hint `i`. */
  lemma {:induction false} EntriesLink(hs: seq<TermHint>, lookup: ParentLookup, i: nat)
    requires i < |hs|
    ensures Entries(hs, lookup)[i] == FinalEntry(hs[i], lookup)
  {
    var n := |hs| - 1;
    if i < n {
      EntriesLink(hs[..n], lookup, i);
    }
  }

  /** The broader entries of the subjects `hs`, concatenated in order. */
  function BroaderOf(hs: seq<TermHint>, lookup: ParentLookup): seq<Tag>
  {
    if hs == [] then [] else BroaderOf(hs[..|hs| - 1], lookup) + BroaderChain(Reverse(ParentsOf(hs[|hs| - 1], lookup)))
  }

  /**
   * A successful search puts every hint routed to `c`, and nothing else, in
   * the bucket of `c`, in input order and without de-duplication.
   */
  lemma {:induction false} SearchBucketIsFilter(hints: seq<TermHint>, lookup: ParentLookup, c: Category)
    requires SearchSpec(hints, lookup).Some?
    ensures SearchSpec(hints, lookup).value.tags.Get(c) == Entries(Routed(hints, c), lookup)
  {
    if hints != [] {
      var n := |hints| - 1;
      var init := hints[..n];
      assert SearchSpec(init, lookup).Some?;
      var doc := SearchSpec(init, lookup).value;
      SearchBucketIsFilter(init, lookup, c);
      StepBucket(doc, hints[n], lookup, c);
      EntriesOfRoutedStep(hints, lookup, c);
    }
  }

  /** One step appends the hint's final entry to its own bucket and leaves the others alone. */
  lemma StepBucket(doc: TagDocument, h: TermHint, lookup: ParentLookup, c: Category)
    requires SearchStep(doc, h, lookup).Some?
    ensures SearchStep(doc, h, lookup).value.tags.Get(c)
      == doc.tags.Get(c) + (if HintCategory(h) == c then [FinalEntry(h, lookup)] else [])
  {
  }

  /** The routed entries of `hints` are those of all but the last hint, then the last one's if it is routed to `c`. */
  lemma EntriesOfRoutedStep(hints: seq<TermHint>, lookup: ParentLookup, c: Category)
    requires hints != []
    ensures var n := |hints| - 1;
      Entries(Routed(hints, c), lookup)
        == Entries(Routed(hints[..n], c), lookup) + (if HintCategory(hints[n]) == c then [FinalEntry(hints[n], lookup)] else [])
  {
    var n := |hints| - 1;
    var prev := Routed(hints[..n], c);
    if HintCategory(hints[n]) == c {
      var rs := prev + [hints[n]];
      assert rs[..|rs| - 1] == prev;
    } else {
      assert prev + [] == prev;
    }
  }

  /** The `broader` list of a successful search is the concatenated broader chains of the subject hints, in order. */
  lemma {:induction false} SearchBroaderIsConcat(hints: seq<TermHint>, lookup: ParentLookup)
    requires SearchSpec(hints, lookup).Some?
    ensures SearchSpec(hints, lookup).value.broader == BroaderOf(Routed(hints, Subject), lookup)
  {
    if hints != [] {
      var n := |hints| - 1;
      var h := hints[n];
      SearchBroaderIsConcat(hints[..n], lookup);
      var prev := Routed(hints[..n], Subject);
      if HintCategory(h) == Subject {
        var rs := prev + [h];
        assert rs[..|rs| - 1] == prev;
      } else {
        assert prev + [] == prev;
      }
    }
  }

  /** Every hint goes to exactly one of the five buckets. */
  lemma {:induction false} RoutedPartition(hints: seq<TermHint>)
    ensures |Routed(hints, Subject)| + |Routed(hints, Organisation)| + |Routed(hints, Person)|
          + |Routed(hints, Event)| + |Routed(hints, Place)| == |hints|
  {
    if hints != [] {
      RoutedPartition(hints[..|hints| - 1]);
    }
  }

  /** There is no de-duplication: the five buckets of a successful search hold as many entries as there are hints. */
  lemma SearchBucketSizes(hints: seq<TermHint>, lookup: ParentLookup)
    requires SearchSpec(hints, lookup).Some?
    ensures var b := SearchSpec(hints, lookup).value.tags;
      |b.subject| + |b.organisation| + |b.person| + |b.event| + |b.place| == |hints|
  {
    SearchBucketIsFilter(hints, lookup, Subject);
    SearchBucketIsFilter(hints, lookup, Organisation);
    SearchBucketIsFilter(hints, lookup, Person);
    SearchBucketIsFilter(hints, lookup, Event);
    SearchBucketIsFilter(hints, lookup, Place);
    RoutedPartition(hints);
    var b := SearchSpec(hints, lookup).value.tags;
    assert b.subject == b.Get(Subject) && b.organisation == b.Get(Organisation) && b.person == b.Get(Person)
      && b.event == b.Get(Event) && b.place == b.Get(Place);
  }

  /**
   * The broader chain of a subject, stated on the path as the endpoint lists
   * it: entry `i` is the `i`-th term from the end, and points to the term
   * before it in that list; the first-listed term has no parent.
   */
  lemma BroaderChainOfPath(parents: seq<ParentTerm>)
    ensures var chain := BroaderChain(Reverse(parents));
      && |chain| == |parents|
      && (forall i :: 0 <= i < |chain| ==>
            chain[i].qcode == parents[|parents| - 1 - i].qcode && chain[i].name == parents[|parents| - 1 - i].name)
      && (forall i :: 0 <= i < |chain| - 1 ==> chain[i].parent == ParentIs(chain[i + 1].qcode))
      && (chain != [] ==> chain[|chain| - 1].parent == NoParent)
  {
    var chain := BroaderChain(Reverse(parents));
    var reversed := Reverse(parents);
    forall i | 0 <= i < |chain|
      ensures chain[i] == NewTag(reversed[i].name, reversed[i].qcode, MediaTopicScheme, NextLink(reversed, i))
    {
      BroaderChainLink(reversed, i);
    }
    forall i | 0 <= i < |chain| - 1
      ensures chain[i].parent == ParentIs(chain[i + 1].qcode)
    {
      assert chain[i + 1].qcode == reversed[i + 1].qcode;
    }
  }
}

=== FILE: semaphore.dfy ===
/**
 * `Semaphore.analyze`: the configuration guard and the choice between the
 * search endpoint (when the article carries a `searchString`) and the
 * classify endpoint. The network calls are parameters: each takes what the
 * source sends and returns the decoded response, or `None` when the call,
 * or the parsing of its answer, raises.
 */
module SemaphoreService {
  import opened Wrappers
  import opened TagModel
  import opened AnalyzeNormalizer
  import opened SearchNormalizer
  import opened OutputShaper
  import opened RequestBuilder

  /** The environment settings the guard and the search path read: `base_url`, `api_key` and `search_url`. */
  datatype Config = Config(baseUrl: Option<string>, apiKey: Option<string>, searchUrl: Option<string>)

  /** `not self.base_url or not self.api_key` is false: both are set and non-empty. */
  predicate Configured(config: Config)
  {
    config.baseUrl.Some? && config.baseUrl.value != "" && config.apiKey.Some? && config.apiKey.value != ""
  }

  /**
   * What `analyze` hands back: `{}` when unconfigured, the search envelope,
   * the five classify buckets, or `None` after an exception was logged.
   */
  datatype Outcome = NotConfigured | Searched(envelope: Envelope) | Analyzed(tags: Buckets) | Failed

  /** POST of the `XML_INPUT` payload to the classify endpoint, answered with its META rows. */
  type Classifier = string -> Option<seq<Meta>>

  /** GET of a search URL, answered with its `termHints`. */
  type Searcher = string -> Option<seq<TermHint>>

  const SearchKey: string := "searchString"

  /** `self.search_url + query + ".json"`; `None` when the search URL is unset, where the source raises `TypeError`. */
  function SearchUrl(config: Config, query: string): (url: Option<string>)
    ensures url.Some? <==> config.searchUrl.Some?
    ensures url.Some? ==>
      && |url.value| == |config.searchUrl.value| + |query| + 5
      && config.searchUrl.value <= url.value
      && url.value[|config.searchUrl.value|..|url.value| - 5] == query
      && url.value[|url.value| - 5..] == ".json"
  {
    match config.searchUrl
    case None => None
    case Some(base) =>
      var url := base + query + ".json";
      assert url[|base|..|url| - 5] == query;
      Some(url)
  }

  /** `analyze_2` once its URL is built: the search, its normalisation and the envelope. */
  function SearchOutcome(config: Config, url: string, search: Searcher, lookup: ParentLookup): Outcome
  {
    if !Configured(config) then NotConfigured
    else
      match search(url)
      case None => Failed
      case Some(hints) =>
        match SearchSpec(hints, lookup)
        case None => Failed
        case Some(doc) => Searched(ConvertToDesiredFormat(doc))
  }

  /** The classify path of `analyze`: build the request, send it, normalise the answer. */
  function ClassifyOutcome(content: map<string, string>, classify: Classifier): Outcome
  {
    match HtmlToXml(content)
    case Failure(_) => Failed
    case Success(xml) =>
      match classify(xml)
      case None => Failed
      case Some(metas) => Analyzed(AnalyzeSpec(metas))
  }

  /**
   * `analyze(html_content)`. An unconfigured adapter answers `{}`; an
   * article with a `searchString` goes to the search endpoint, unless the
   * search URL is unset, in which case the `TypeError` is swallowed and the
   * article goes to the classify endpoint like any other.
   */
  function Analyze(config: Config, content: map<string, string>, classify: Classifier, search: Searcher,
                   lookup: ParentLookup): (r: Outcome)
    ensures r == NotConfigured <==> !Configured(config)
    ensures Configured(config) && SearchKey in content && config.searchUrl.Some? ==>
      r == SearchOutcome(config, SearchUrl(config, content[SearchKey]).value, search, lookup)
    ensures Configured(config) && (SearchKey !in content || config.searchUrl.None?) ==>
      r == ClassifyOutcome(content, classify)
    ensures r.Searched? ==> r.envelope.result.tags.objectTags == []
    ensures r.Searched? ==>
      && Configured(config) && SearchKey in content && config.searchUrl.Some?
      && (exists hints :: search(SearchUrl(config, content[SearchKey]).value) == Some(hints)
           && SearchSpec(hints, lookup) == Some(Unwrap(r.envelope)))
    ensures r.Analyzed? ==>
      && Configured(config) && (SearchKey !in content || config.searchUrl.None?)
      && HtmlToXml(content).Success?
      && (exists metas :: classify(HtmlToXml(content).value) == Some(metas) && r.tags == AnalyzeSpec(metas))
      && BucketsOk(r.tags)
  {
    if !Configured(config) then NotConfigured
    else if SearchKey in content && SearchUrl(config, content[SearchKey]).Some? then
      SearchOutcome(config, SearchUrl(config, content[SearchKey]).value, search, lookup)
    else
      var r := ClassifyOutcome(content, classify);
      if r.Analyzed? then
        var metas := classify(HtmlToXml(content).value).value;
        AnalyzeOutputOk(metas);
        r
      else r
  }

  /** A configured adapter never answers `{}`: it searches, classifies, or fails. */
  lemma ConfiguredAnswers(config: Config, content: map<string, string>, classify: Classifier, search: Searcher,
                          lookup: ParentLookup)
    requires Configured(config)
    ensures var r := Analyze(config, content, classify, search, lookup);
      r.Searched? || r.Analyzed? || r.Failed?
  {
  }

  /** With a search URL set, an article carrying a `searchString` is never classified. */
  lemma SearchTakesPrecedence(config: Config, content: map<string, string>, classify: Classifier, search: Searcher,
                              lookup: ParentLookup)
    requires SearchKey in content && config.searchUrl.Some?
    ensures !Analyze(config, content, classify, search, lookup).Analyzed?
  {
  }

  /** Without a search URL, a search request is answered by the classify path. */
  lemma SearchFallsBackToClassify(config: Config, content: map<string, string>, classify: Classifier,
                                  search: Searcher, lookup: ParentLookup)
    requires Configured(config) && config.searchUrl.None?
    ensures Analyze(config, content, classify, search, lookup) == ClassifyOutcome(content, classify)
  {
  }
}

=== FILE: shaper.dfy ===
/**
 * `convert_to_desired_format`: the envelope the search path returns, with
 * the six buckets of the normaliser regrouped under `result`.
 */
module OutputShaper {
  import opened TagModel

  /** `result.tags`: the five category buckets and an always-empty `object` bucket. */
  datatype TagGroups = TagGroups(
    subject: seq<Tag>,
    organisation: seq<Tag>,
    person: seq<Tag>,
    event: seq<Tag>,
    place: seq<Tag>,
    objectTags: seq<Tag>)

  /** `result.broader`: the broader terms, all under `subject`. */
  datatype BroaderGroups = BroaderGroups(subject: seq<Tag>)

  datatype EnvelopeBody = EnvelopeBody(tags: TagGroups, broader: BroaderGroups)

  /** `{"result": {"tags": ..., "broader": ...}}`. */
  datatype Envelope = Envelope(result: EnvelopeBody)

  /** Reads the six buckets back out of an envelope, ignoring `object`. */
  function Unwrap(e: Envelope): TagDocument
  {
    var t := e.result.tags;
    TagDocument(Buckets(t.subject, t.organisation, t.person, t.event, t.place), e.result.broader.subject)
  }

  /** `convert_to_desired_format(input_data)`: moves every bucket unchanged into the envelope and adds an empty `object`. */
  function ConvertToDesiredFormat(doc: TagDocument): (e: Envelope)
    ensures e.result.tags.objectTags == []
    ensures Unwrap(e) == doc
  {
    var b := doc.tags;
    Envelope(EnvelopeBody(
      TagGroups(b.subject, b.organisation, b.person, b.event, b.place, []),
      BroaderGroups(doc.broader)))
  }

  /** Every envelope with an empty `object` bucket is the conversion of exactly one document. */
  lemma ConvertRoundTrip(e: Envelope)
    requires e.result.tags.objectTags == []
    ensures ConvertToDesiredFormat(Unwrap(e)) == e
  {
  }

  /** Two different documents never convert to the same envelope: the conversion loses nothing. */
  lemma ConvertInjective(a: TagDocument, b: TagDocument)
    requires ConvertToDesiredFormat(a) == ConvertToDesiredFormat(b)
    ensures a == b
  {
    assert Unwrap(ConvertToDesiredFormat(a)) == a;
  }
}

=== FILE: tagmodel.dfy ===
/**
 * The canonical tag taxonomy the adapter hands back to the newsroom
 * system: tags, the five category buckets, and the rule by which the
 * analyze path adds a tag to a bucket (`add_to_dict`).
 */
module TagModel {

  /**
   * The `parent` entry of a tag dictionary. Tags built from category META
   * rows have no `parent` key at all (`Missing`); the others carry `None`
   * (`NoParent`) or a parent qcode.
   */
  datatype ParentLink = Missing | NoParent | ParentIs(qcode: string)

  /** One tag dictionary: name, qcode, source, altids, original_source, scheme and parent. */
  datatype Tag = Tag(
    name: string,
    qcode: string,
    source: string,
    altids: map<string, string>,
    originalSource: string,
    scheme: string,
    parent: ParentLink)

  const SourceName: string := "Semaphore"
  const SourceAltIds: map<string, string> := map["source_name" := "source_id"]
  const OriginalSourceValue: string := "original_source_value"
  const MediaTopicScheme: string := "http://cv.iptc.org/newscodes/mediatopic/"

  /** A tag with the fixed `source`, `altids` and `original_source` entries every tag carries. */
  function NewTag(name: string, qcode: string, scheme: string, parent: ParentLink): Tag
  {
    Tag(name, qcode, SourceName, SourceAltIds, OriginalSourceValue, scheme, parent)
  }

  datatype Category = Subject | Organisation | Person | Event | Place

  /** The scheme URI of each category; both response shapes use the same four vendor schemes. */
  function CategoryScheme(c: Category): string
  {
    match c
    case Subject => MediaTopicScheme
    case Organisation => "http://cv.cp.org/Organizations/"
    case Person => "http://cv.cp.org/People/"
    case Event => "http://cv.cp.org/Events/"
    case Place => "http://cv.cp.org/Places/"
  }

  /** The five-bucket mapping `{subject, organisation, person, event, place}`, each in discovery order. */
  datatype Buckets = Buckets(
    subject: seq<Tag>,
    organisation: seq<Tag>,
    person: seq<Tag>,
    event: seq<Tag>,
    place: seq<Tag>)
  {
    function Get(c: Category): seq<Tag>
    {
      match c
      case Subject => subject
      case Organisation => organisation
      case Person => person
      case Event => event
      case Place => place
    }

    /** Replaces one bucket and leaves the four others as they were. */
    function Put(c: Category, tags: seq<Tag>): (b: Buckets)
      ensures b.Get(c) == tags
      ensures forall d :: d != c ==> b.Get(d) == Get(d)
    {
      match c
      case Subject => this.(subject := tags)
      case Organisation => this.(organisation := tags)
      case Person => this.(person := tags)
      case Event => this.(event := tags)
      case Place => this.(place := tags)
    }
  }

  const EmptyBuckets: Buckets := Buckets([], [], [], [], [])

  /** The six-bucket mapping of the search path: the five categories plus `broader`. */
  datatype TagDocument = TagDocument(tags: Buckets, broader: seq<Tag>)

  /** A bucket the analyze path may hand out: every qcode non-empty, no two entries equal. */
  ghost predicate BucketOk(bucket: seq<Tag>)
  {
    && (forall i :: 0 <= i < |bucket| ==> bucket[i].qcode != "")
    && (forall i, j :: 0 <= i < j < |bucket| ==> bucket[i] != bucket[j])
  }

  ghost predicate BucketsOk(b: Buckets)
  {
    forall c :: BucketOk(b.Get(c))
  }

  /** `add_to_dict` on one bucket: append the tag when its qcode is non-empty and it is not already there. */
  function AddTag(bucket: seq<Tag>, t: Tag): (r: seq<Tag>)
    ensures bucket <= r
    ensures forall x :: x in r <==> x in bucket || (x == t && t.qcode != "")
    ensures BucketOk(bucket) ==> BucketOk(r)
  {
    if t.qcode != "" && t !in bucket then bucket + [t] else bucket
  }

  /** `add_to_dict(group, tag)` on the whole mapping. */
  function Insert(b: Buckets, group: Category, t: Tag): (r: Buckets)
    ensures r.Get(group) == AddTag(b.Get(group), t)
    ensures forall d :: d != group ==> r.Get(d) == b.Get(d)
  {
    b.Put(group, AddTag(b.Get(group), t))
  }

  /** `add_to_dict` applied to each of `ts` in turn. */
  function AddAll(bucket: seq<Tag>, ts: seq<Tag>): seq<Tag>
  {
    if ts == [] then bucket else AddTag(AddAll(bucket, ts[..|ts| - 1]), ts[|ts| - 1])
  }

  /**
   * Adding a run of tags only appends: the bucket keeps its entries, gains
   * exactly the added tags with non-empty qcodes, and stays well formed.
   */
  lemma {:induction false} AddAllFacts(bucket: seq<Tag>, ts: seq<Tag>)
    ensures bucket <= AddAll(bucket, ts)
    ensures BucketOk(bucket) ==> BucketOk(AddAll(bucket, ts))
  {
    if ts != [] {
      AddAllFacts(bucket, ts[..|ts| - 1]);
    }
  }

  /** A tag is in the bucket after `AddAll` iff it was there before or is one of `ts` with a non-empty qcode. */
  lemma {:induction false} AddAllMembership(bucket: seq<Tag>, ts: seq<Tag>, x: Tag)
    ensures x in AddAll(bucket, ts) <==> x in bucket || (x in ts && x.qcode != "")
  {
    if ts != [] {
      var n := |ts| - 1;
      AddAllMembership(bucket, ts[..n], x);
      assert ts == ts[..n] + [ts[n]];
      assert x in ts <==> x in ts[..n] || x == ts[n];
    }
  }

  /** Adding a tag that is already present, or has an empty qcode, changes nothing. */
  lemma AddTagIdempotent(bucket: seq<Tag>, t: Tag)
    ensures AddTag(AddTag(bucket, t), t) == AddTag(bucket, t)
  {
  }

  /** A prefix of a well-formed bucket is well formed. */
  lemma BucketOkPrefix(p: seq<Tag>, q: seq<Tag>)
    requires p <= q && BucketOk(q)
    ensures BucketOk(p)
  {
    assert forall i :: 0 <= i < |p| ==> p[i] == q[i];
  }

  /** The last entry of a well-formed bucket has a qcode and is not among the entries before it. */
  lemma BucketOkLast(q: seq<Tag>)
    requires q != [] && BucketOk(q)
    ensures q[|q| - 1].qcode != "" && q[|q| - 1] !in q[..|q| - 1]
  {
    var n := |q| - 1;
    forall i | 0 <= i < n
      ensures q[..n][i] != q[n]
    {
      assert q[..n][i] == q[i];
    }
  }

  /** Appending tags that keep the bucket well formed drops none of them: `add_to_dict` then appends each in turn. */
  lemma {:induction false} AddAllNoDrop(bucket: seq<Tag>, ts: seq<Tag>)
    requires BucketOk(bucket + ts)
    ensures AddAll(bucket, ts) == bucket + ts
  {
    if ts != [] {
      var n := |ts| - 1;
      var prefix := bucket + ts[..n];
      assert bucket + ts == prefix + [ts[n]];
      BucketOkPrefix(prefix, bucket + ts);
      AddAllNoDrop(bucket, ts[..n]);
      BucketOkLast(bucket + ts);
      assert (bucket + ts)[..|bucket + ts| - 1] == prefix;
    }
  }
}

=== FILE: wrappers.dfy ===
/** Optional values and results with an error, used for Python's `None` and for raised exceptions. */
module Wrappers {

  datatype Option<+T> = None | Some(value: T)

  datatype Result<+T, +E> = Success(value: T) | Failure(error: E)
}
